=== FILE: README.md ===
# mpds-client, modelled in Dafny

A model of the core of the MPDS client library (`mpds_client`). Each file models one part of the client:

| file | what it models |
|---|---|
| `retrieval.dfy` | The paginated, batched retrieval loop of `MPDSDataRetrieval.get_data` and its single-request sibling `count_data`. |
| `fetch.dfy` | How `_request` builds a request and sorts the server's response into an error or a page. |
| `projection.dfy` | How `_massage` turns records of the three kinds (`S`, `P`, `C`) into rows of selected fields. |
| `batching.dfy` | Deduplication of the phase filter, and its split into at most 1500 ids per request with numpy's `array_split`. |
| `crystal.dfy` | How `compile_crystal` and `get_crystals` turn a projected row into the description of a crystal structure. |
| `export.dfy` | `MPDSExport._get_title`, plus the validation of `MPDSExport.save_plot` and the JSON payloads it builds for bar and 3D plots. |
| `errors.dfy` | The `APIError` value and its rendering. |

The remaining files are shared helpers:

| file | contents |
|---|---|
| `decimal.dfy` | Python's `str`/`int` on integers. |
| `text.dfy` | Splitting and joining strings. |
| `seqs.dfy` | Concatenation of sequences of sequences. |
| `json.dfy` | Decoded JSON values and Python truthiness. |
| `results.dfy` | `Result` and `Option`. |

The outside world becomes parameters:

- **The server** is a function from a request to a response: an HTTP status and a decoded body, or no body when the content does not decode.
- **Path evaluation** against a record (jmespath) is a function `Search`.
- **Structure libraries:** which ones are available is two booleans.
- **Data frames:** a polars DataFrame is a list of column names and rows of cells.

A Python exception becomes the `Failure` of a `Result`.

Termination of the page loop is modelled under one assumption per batch, `Retrieval.KeepsPageRange`. It concerns only the pages the loop actually requests. Suppose pages 0 to k-1 of a batch were accepted and none of them declared itself the last. If page k is accepted too, it must declare more than k pages. A server that answers every request with the same single page meets the assumption (`Retrieval.SinglePageServer`), because the loop stops after page 0. Under the assumption, the page loop ends within `maxnpages` = 100 pages: either a page is refused or the last page is reached. The assumption is made only of the batches `get_data` requests, `Retrieval.KeepsPageRanges`: the first batch, and each later one while all batches before it succeeded. A failing batch raises (retrieve_MPDS.py lines 247-259), so no batch after it is requested and nothing is assumed of those. `Retrieval.Outcomes` likewise lists the outcomes up to and including the first failing batch.

Some constants of the code are easy to misread, and the model keeps them as written:

- An empty result is raised as "No hits" with code 1 (retrieve_MPDS.py line 157). The 204 "No Results" entry of the table in errors.py is never produced by the retrieval code.
- The "Too many hits" error carries code 1 (retrieve_MPDS.py lines 250-255).
- `maxnpages` is 100 and `pagesize` is 1000 (retrieve_MPDS.py lines 115-116).
- `count_data` raises on an empty result (retrieve_MPDS.py lines 197-200), because `_request` turns an empty `out` into an error reply. It never returns 0.

## Model

| member | source | states |
|---|---|---|
| Errors.Describe | mpds_client/errors.py:6-18 | A code in the table gets its table description. The fallback "Communication Error" is returned exactly for codes outside the table, so no table entry reads as the fallback. |
| Errors.Render | mpds_client/errors.py:25-26 | `str(APIError)` reads, in order: "HTTP error code ", the code's numeral, ": ", the code's description, " (", the message, ")". |
| Errors.RenderRoundTrip | mpds_client/errors.py:20-26 | The code and the message stored by `__init__` can both be read back from the `__str__` text. |
| Errors.RenderInjective | mpds_client/errors.py:25-26 | Two errors with different code or message never print the same text. |
| Fetch.SerializePhases | mpds_client/retrieve_MPDS.py:135 | The phase parameter is the empty string exactly when no ids are given. |
| Fetch.SerializePhasesRoundTrip | mpds_client/retrieve_MPDS.py:135 | The comma-joined phase parameter reads back as exactly the phase ids, in order, with the empty string for no ids. |
| Fetch.MakeRequest | mpds_client/retrieve_MPDS.py:134-143 | The request carries the query, phases and page as given. A non-zero page size is used as given, and a missing or zero one falls back to the default of 1000 (`pagesize or self.pagesize`). |
| Fetch.ParametersInjective | mpds_client/retrieve_MPDS.py:137-143 | Requests with equal query-string parameters are the same request. |
| Fetch.Classify | mpds_client/retrieve_MPDS.py:148-159 | A response is a page exactly when the status is 200, the body decodes, it has no error and its `out` is non-empty. Otherwise the checks apply in source order: the HTTP status as code, "Unreadable data obtained", the embedded error, or "No hits" with code 1. |
| Fetch.Raise | mpds_client/retrieve_MPDS.py:247-248 | An error reply is raised with its error text as message and its code, or 0 when the reply carries none. |
| Projection.CompileEntries | mpds_client/retrieve_MPDS.py:228 | One selector per field entry: a path stays that path, and a callable becomes the constant it returns. |
| Projection.Compile | mpds_client/retrieve_MPDS.py:227-230 | An empty field specification switches projection off. Otherwise every kind keeps its entries, each compiled in place. |
| Projection.EvaluateAll | mpds_client/retrieve_MPDS.py:171-175 | One cell per selector, in order: a path's value is the search result against the record, and a constant is copied verbatim. |
| Projection.Project | mpds_client/retrieve_MPDS.py:167-180 | The row of a record of a known kind has one cell per selector of that kind, and a kind missing from the fields gives an empty row. A record of any other kind raises "API error: unknown data type". |
| Projection.Massage | mpds_client/retrieve_MPDS.py:161-182 | `_massage` can fail only with projection on, and only with the unknown-type error. On success it yields one entry per record. |
| Projection.MassageOutcome | mpds_client/retrieve_MPDS.py:161-182 | With projection off the records pass unchanged. With it on, `_massage` succeeds exactly when every record is of a known kind and then yields each record's row in order. The only failure is the unknown-type error. |
| Batching.Dedup | mpds_client/retrieve_MPDS.py:233 | `list(set(phases))` holds every id of the input and nothing else, each once. |
| Batching.ArraySplit | mpds_client/retrieve_MPDS.py:235-237 | `array_split(xs, k)` gives `k` chunks. Chunk `i` is the contiguous slice of `len(xs) // k` items, one more for the first `len(xs) % k` chunks. |
| Batching.ArraySplitConcat | mpds_client/retrieve_MPDS.py:235-237 | The `array_split` chunks, concatenated, give back the input. |
| Batching.Batches | mpds_client/retrieve_MPDS.py:234-238 | The batches, concatenated, are the ids. No batch exceeds the per-request ceiling of 1500, and batch sizes differ by at most one. Ids that fit go out as one batch; more are split into `ceil(n / 1500)` batches, none of them empty. |
| Retrieval.MaxHitsTextIsCeiling | mpds_client/retrieve_MPDS.py:250-255 | The ceiling `maxnpages * pagesize` quoted in the "Too many hits" message prints as 100000. |
| Retrieval.TooManyHits | mpds_client/retrieve_MPDS.py:250-255 | The ceiling error is raised with code 1. |
| Retrieval.SinglePageServer | mpds_client/retrieve_MPDS.py:244-267 | A server that answers every request, whatever its page, with one single-page reply meets the page loop's range assumption. |
| Retrieval.ReachNext | mpds_client/retrieve_MPDS.py:264-267 | After an accepted page that is not the last, the loop requests the next page, still below the ceiling, holding the hit count the accepted page declared. |
| Retrieval.RunBatch | mpds_client/retrieve_MPDS.py:244-267 | Within one batch a non-zero hit count never changes: a walk that succeeds after a count was seen reports that count. |
| Retrieval.PageTurn | mpds_client/retrieve_MPDS.py:246-267 | One turn of the page loop runs its checks in source order: an error reply, the page ceiling, an unknown record kind, a changed hit count, the last page. A turn that stops gives what the batch gives from that page. A turn that goes on moves to the next page, still below the ceiling, with the page's hit count, and the batch's rows are the page's rows followed by the rest. |
| Retrieval.WalkBatch | mpds_client/retrieve_MPDS.py:244-270 | The page loop as written, appending each page's rows to the output, computes the batch outcome with the earlier output in front. |
| Retrieval.CompletesGivesRows | mpds_client/retrieve_MPDS.py:256-265 | A walk that is accepted up to its last page yields the rows of its pages in page order, and the hit count of the last page. |
| Retrieval.BatchTrace | mpds_client/retrieve_MPDS.py:244-267 | A batch succeeds exactly when some page completes it after only accepted pages, and then yields pages 0 to n in order. It fails exactly when some page is refused after only accepted, non-final pages, and then raises that page's error. |
| Retrieval.RangesStopAtFailure | mpds_client/retrieve_MPDS.py:242-259 | Nothing is assumed of the batches after a failing one: when the batches before batch i complete and batch i fails, both within their page ranges, the range assumption holds for the whole batch list, whatever the later batches would do. |
| Retrieval.GatherOutcome | mpds_client/retrieve_MPDS.py:242-272 | The batch loop succeeds exactly when every batch does. The rows then come batch after batch, and `tot_count` is the sum of each batch's last hit count. Otherwise the error is that of the first failing batch. |
| Retrieval.Finish | mpds_client/retrieve_MPDS.py:274-275 | The final check passes a batch failure through. Otherwise it returns the rows exactly when their number equals the summed hit counts, and raises "API error: collected and declared counts of hits differ" when it does not. |
| Retrieval.GetData | mpds_client/retrieve_MPDS.py:226-279 | When `get_data` returns, every batch was requested and succeeded, and the result is the batches' rows in batch order, as many as the batches' summed hit counts. |
| Retrieval.GetDataOutcome | mpds_client/retrieve_MPDS.py:226-279 | `get_data` returns exactly when every batch succeeds and the number of collected rows equals the summed counts. It then returns the rows in batch order. Every batch succeeding with the numbers disagreeing raises "API error: collected and declared counts of hits differ". |
| Retrieval.WalkBatches | mpds_client/retrieve_MPDS.py:240-276 | The batch loop as written, with output and totals carried across batches, computes the gathered outcome of the batches. |
| Retrieval.Retrieve | mpds_client/retrieve_MPDS.py:226-279 | `get_data` as written, with its loops, equals the functional definition whose outcome `Retrieval.GetDataOutcome` describes. |
| Retrieval.CountRequest | mpds_client/retrieve_MPDS.py:197 | `count_data` asks for page 0 with ten records per page and the phase ids as given. |
| Retrieval.CountData | mpds_client/retrieve_MPDS.py:197-206 | `count_data` returns the declared count exactly when the response is a usable page. An HTTP failure carries the status as code. The size warning fires exactly when the 10-per-page request declares more than 100 pages, and then suggests `ceil(count / 1000)`. |
| Retrieval.CountWarningMisfires | mpds_client/retrieve_MPDS.py:201-205 | 5000 hits trigger the warning, and the suggested ceiling is 5, below the current 100. |
| Retrieval.CountDataIntended | mpds_client/retrieve_MPDS.py:201-205 | Same outcome and count as `count_data`. The warning fires exactly when the hits exceed what `get_data` fetches per batch, and the suggested ceiling is then above the current one. |
| Crystal.ToInt | mpds_client/retrieve_MPDS.py:355 | `int()` of a cell: numbers pass and booleans become 0/1. Decimal strings are parsed, and other strings or values raise. |
| Crystal.ToIntRoundTrip | mpds_client/retrieve_MPDS.py:355 | `int()` reads back what `str()` prints for every integer. |
| Crystal.AseSetting | mpds_client/retrieve_MPDS.py:367 | The ASE setting is 2 exactly when the cell is the string "2", and 1 otherwise. |
| Crystal.PairAtoms | mpds_client/retrieve_MPDS.py:369-370 | Basis position `i` is paired with element `i`, for every position. The loop succeeds exactly when every position has an element symbol and is a value `tuple()` accepts (a list, string or object). |
| Crystal.PairAtomsFailure | mpds_client/retrieve_MPDS.py:369-370 | A failing loop fails at the first position that does not fit. It raises an index error when the symbols have run out there, and otherwise the type error of `tuple()` on that position. |
| Crystal.AseAtoms | mpds_client/retrieve_MPDS.py:369-370 | A basis cell that is not a list raises a type error. An empty basis yields no atoms without reading the element cell. A non-empty basis needs a list of element symbols and pairs with it. |
| Crystal.CompileCrystal | mpds_client/retrieve_MPDS.py:344-381 | The outcome follows the source's checks in order. An empty row or a falsy last cell holds no structure, and a short row raises the ValueError. Then comes the `int()` of the space group, then the library choice (or "Crystal structure treatment unavailable"). The pymatgen branch always succeeds, with a structure built from the last five cells and the parsed space group. On success the structure carries the last five cells in order, and it is a pymatgen structure exactly when that flavor was asked for and is available. In the ASE branch a failure of the atom loop is raised; otherwise the crystal carries the atoms of the loop and the setting of the third-last cell. |
| Crystal.CrystalRowsNeverShort | mpds_client/retrieve_MPDS.py:304-313 | Rows projected with the fields `get_crystals` asks for are five cells long for structure entries and empty otherwise, so they never raise the short-row error. |
| Crystal.Crystals | mpds_client/retrieve_MPDS.py:307-313 | `get_crystals` succeeds exactly when every retrieved row compiles. |
| Crystal.HoldingSelects | mpds_client/retrieve_MPDS.py:344-347 | The rows that yield a structure are exactly the non-empty rows with a truthy last cell. |
| Crystal.CrystalsFromHolding | mpds_client/retrieve_MPDS.py:307-313 | On success `get_crystals` yields one structure per row that holds one, in row order, each compiled from that row. |
| Export.Capitalize | mpds_client/export_MPDS.py:46 | `str.capitalize()` upper-cases the first character and lower-cases the others. |
| Export.CapitalizeIdempotent | mpds_client/export_MPDS.py:46 | A capitalized name has no lower-case first letter and no later upper-case letter. Capitalizing it again changes nothing. |
| Export.GetTitle | mpds_client/export_MPDS.py:42-46 | An integer prints as a canonical numeral (no leading zero, no sign on zero) that reads back as the integer. A name in `human_names` gets its human title, and any other name is capitalized. |
| Decimal.CanonicalPrinted | mpds_client/export_MPDS.py:44-45 | Every canonical numeral is what `str` prints for its value, so the title of an integer is exactly `str(term)`. |
| Export.Column | mpds_client/export_MPDS.py:81-82 | `data[c].to_list()` has one cell per row, in row order. |
| Export.Select | mpds_client/export_MPDS.py:70-72 | Each CSV line holds the selected columns' cells of its row, in column order. |
| Export.SavePlot | mpds_client/export_MPDS.py:59-137 | The checks run in order: data type, columns, format, and then the plot type for JSON or the selection of the columns for CSV, each with its own error. `select` refuses a column named twice. `save_plot` succeeds exactly for a data frame with the named columns and either CSV of distinct columns or a known plot type with enough columns for the payload. |
| Export.CsvExport | mpds_client/export_MPDS.py:66-72 | For distinct columns none of whose names holds a comma, the CSV header splits back into the column names. There is one line per row, in row order, holding that row's cells of the columns in column order. The plot type and keyword arguments play no part. |
| Export.Merge | mpds_client/export_MPDS.py:130-131 | `payload.update(kwargs)` holds the keys of both. A keyword argument's value wins, and every other key keeps its payload value. |
| Export.Payload | mpds_client/export_MPDS.py:78-128 | A bar payload needs two columns. A 3D payload needs three, and five once there is a row; short column lists raise an index error. Any other plot type raises "Error: <plottype> is an unknown plot type". |
| Export.BarPayload | mpds_client/export_MPDS.py:78-85 | The bar payload has exactly the keys `x`, `y`, `xtitle` and `ytitle`. `x` is one list holding the first column's cells in row order, and `y` holds the second column's. |
| Export.BarExport | mpds_client/export_MPDS.py:78-85 | The bar payload has keys `x`, `y`, `xtitle` and `ytitle` plus the keyword arguments. `x` is one list of the first column, `y` is the second column, and the titles are those of the two names, unless a keyword argument overrides them. |
| Export.JsonPlot | mpds_client/export_MPDS.py:78-131 | The JSON branch fails exactly when building the payload fails, with that error, and otherwise writes a document whose payload is the built payload updated with the keyword arguments. |
| Export.JsonExport | mpds_client/export_MPDS.py:74-134 | A JSON export that passes validation writes the plot type's payload, updated with the keyword arguments. |
| Export.Points | mpds_client/export_MPDS.py:97-110 | One point per row in row order, with x, y, z, label and mesh id read from columns 0 to 4. |
| Export.Meshes | mpds_client/export_MPDS.py:111-126 | No mesh is left empty, and there are never more meshes than rows. |
| Export.Plot3dPayload | mpds_client/export_MPDS.py:87-126 | The `points` object's `x`, `y`, `z` and `labels` lists hold one entry per row, in row order, read from columns 0 to 3. `meshes` holds one object per mesh of the loop, in order, each with its points' `x`, `y` and `z` lists, and there is one mesh per change of mesh id. The three titles are those of the first three names. |
| Export.JsonXsMeshes | mpds_client/export_MPDS.py:111-126 | Reading the `x` lists back from the written mesh objects, one after another, gives the x values of the meshes' points in order. |
| Export.Plot3dMeshesCover | mpds_client/export_MPDS.py:97-126 | With a mesh id on every row, the written meshes' `x` lists, concatenated, are exactly the `x` list of `points`. |
| Export.MeshesAreRuns | mpds_client/export_MPDS.py:96-126 | The meshes are the maximal runs of equal mesh ids after the leading rows that carry none. Read in order they give back those rows. None is empty, neighbours differ, and there is one per change of id. |
| Export.MeshesCoverAll | mpds_client/export_MPDS.py:96-126 | When every row has a mesh id, the meshes hold all rows in order. |
| Export.Plot3dExport | mpds_client/export_MPDS.py:87-134 | A plot3d JSON export with a mesh id on every row succeeds. In the document `save_plot` writes, the `points` lists hold one entry per row in row order, there is one mesh object per change of id, and the meshes' `x` lists, concatenated, give back the `x` list of `points`. The titles are those of the first three names. A keyword argument overrides the key of its name. |

## Left out

- **Transport:**
  - the HTTP client, URL encoding and JSON encoding/decoding;
  - the API key and its environment variable;
  - `time.sleep`;
  - progress output on stdout.

  The server is a function parameter, and a body that does not decode is `None`.
- **Python-level exceptions:** a body that decodes but lacks `out`, `error`, `count`, `npages` or a record's `object_type` raises a `KeyError` in Python. The model's bodies always carry these fields.
- **Path expressions** (jmespath) are not part of this model. Their evaluation is the `Search` parameter.
- **Outside the core:** `get_dataframe` (pandas) and the pymatgen/ASE constructors. The model stops at the arguments handed to them (`Structure`).
- **`_massage_atsymb`** is the identity on Python 3 and is not modelled separately.
- **`get_crystals`:** it sets `search["props"]`. The model takes the search as given.
- **`list(set(phases))`:** Python's set iteration order is unspecified. `Batching.Dedup` keeps first occurrences; the proved properties do not depend on the order.
- **`math.ceil` of float divisions** is modelled as exact integer ceiling division. These are the batch count and `count_data`'s suggestion.
- Crystal.ToInt: Python's `int()` also accepts surrounding whitespace, a leading `+`, underscores and non-ASCII digits, and truncates floats. The model accepts an optional minus followed by ASCII digits, so leading zeros ("007") and a minus zero ("-0") pass as in Python. JSON numbers are integers.
- Crystal.AseAtoms, Crystal.CompileCrystal: a basis cell that is not a list raises a `TypeError` in the model, and so does an element cell that is not a list under a non-empty basis. Python would iterate over a string or object basis, index a string element cell by character, and raise `KeyError` for an object element cell. A position `tuple()` accepts is kept as its JSON value rather than converted to a tuple.
- Projection.Compile: `jmespath.compile` raises on a malformed path expression at line 228. The model compiles every path and leaves its evaluation to `Search`.
- Batching.Dedup: phase ids are integers in the model. Python deduplicates before `int()` at line 135, so "12" and 12 both survive `set()` and both go out as "12", and an id `int()` refuses raises a `ValueError`.
- `default_fields` (retrieve_MPDS.py lines 83-110), the field table `get_data` uses when given none, is not modelled. The field specification is always a parameter.
- Export.Capitalize: cases ASCII letters only. Python's `str.capitalize` uses full Unicode case mapping.
- Export.GetTitle: a Python `bool` is an `int`, so `_get_title(True)` prints "True". Terms are modelled as integers or strings only.
- **`save_plot`'s file handling:**
  - the export directory check;
  - the random file name;
  - the file opened before the plot type is checked;
  - the JSON text written.

  A success carries the file extension and, for JSON, the plot document. The CSV number formatting by `str` is not modelled.
- **retrieve_MPDS.py's own `APIError` class** (lines 39-47) is the one `get_data` and `count_data` raise. Its `__str__` prints the repr of the message rather than the table description. `Errors.ApiError` models its fields (message and code), and `Errors.Render` models the `__str__` of mpds_client/errors.py only.
- **`count_data`'s warning** is an outcome field (`suggested`) rather than a Python warning.
- Retrieval.GetData, Retrieval.GetDataOutcome, Retrieval.WalkBatches, Retrieval.Retrieve: assume `KeepsPageRange` for every batch that is requested, meaning the first batch and each later one while the batches before it succeeded. Nothing is assumed of the batches after a failing one. The assumption says that a page the loop requests and accepts declares more pages than its own index. Suppose a server breaks this at page k. If page k declares 0 pages, the progress line at retrieve_MPDS.py line 269 divides by zero, and the source raises `ZeroDivisionError` before it asks for another page. Otherwise the source asks for page k+1 and beyond. It raises at the first error reply, page over the ceiling, unknown record kind, changed hit count or accepted page declaring 0 pages. It stops at a page whose index is its declared count minus one. If none of these happens it runs forever. The model says nothing about such servers.
- Export.SavePlot: the text of polars' `DuplicateError` is not modelled, only its kind.

## Findings

| source | as written | input that shows it | evidently intended | confidence | as-written member | corrected member |
|---|---|---|---|---|---|---|
| mpds_client/retrieve_MPDS.py:201-205 | The "Dataset is too big" warning compares `npages` of a 10-per-page request with `maxnpages`, and suggests `ceil(count / pagesize)` with `pagesize` 1000. | A query with 5000 hits declares 500 pages of 10, so the warning fires and suggests changing `maxnpages` from 100 to 5. Yet `get_data` fetches those hits in 5 pages. | Warn exactly when `get_data` would refuse the batch (more than `maxnpages * pagesize` = 100000 hits), and then suggest a ceiling above the current one. | medium; not executed | Retrieval.CountData, Retrieval.CountWarningMisfires | Retrieval.CountDataIntended |



=== FILE: batching.dfy ===
/** Deduplication of the phase filter and its split into request-sized batches
    (`get_data` in mpds_client/retrieve_MPDS.py, with numpy's `array_split`). */
module Batching {
  import opened Seqs

  /** The default ceiling on phase ids per request. */
  const MaxPhases: nat := 1500

  /** `list(set(xs))`, listed in order of first occurrence. */
  function Dedup(xs: seq<int>): (r: seq<int>)
    ensures NoDuplicates(r)
    ensures forall x :: x in r <==> x in xs
    ensures |r| <= |xs|
    decreases |xs|
  {
    if |xs| == 0 then []
    else
      var init := Dedup(xs[..|xs| - 1]);
      var last := xs[|xs| - 1];
      assert forall x :: x in xs <==> x in xs[..|xs| - 1] || x == last by {
        assert xs == xs[..|xs| - 1] + [last];
      }
      if last in init then init else init + [last]
  }

  /** `ceil(n / m)` for a positive divisor. */
  function CeilDiv(n: nat, m: nat): (q: nat)
    requires m > 0
    ensures q * m >= n
    ensures q == 0 || (q - 1) * m < n
  {
    (n + m - 1) / m
  }

  /** Where chunk `i` of a `k`-way `array_split` of `n` items starts: the first
      `n % k` chunks hold one item more than the others. */
  function ChunkStart(n: nat, k: nat, i: nat): (s: nat)
    requires k > 0
  {
    i * (n / k) + (if i < n % k then i else n % k)
  }

  lemma ChunkStartStep(n: nat, k: nat, i: nat)
    requires k > 0
    ensures ChunkStart(n, k, i + 1) == ChunkStart(n, k, i) + n / k + (if i < n % k then 1 else 0)
  {
    var q := n / k;
    assert (i + 1) * q == i * q + q;
  }

  lemma {:induction false} ChunkStartBounded(n: nat, k: nat, i: nat)
    requires k > 0 && i <= k
    ensures ChunkStart(n, k, i) <= ChunkStart(n, k, k) == n
    decreases k - i
  {
    if i < k {
      ChunkStartBounded(n, k, i + 1);
      ChunkStartStep(n, k, i);
    }
  }

  /** Chunk `i` of a `k`-way `array_split`. */
  function Chunk<T>(xs: seq<T>, k: nat, i: nat): (chunk: seq<T>)
    requires k > 0 && i < k
    ensures |chunk| == |xs| / k + (if i < |xs| % k then 1 else 0)
  {
    ChunkStartBounded(|xs|, k, i + 1);
    ChunkStartBounded(|xs|, k, i);
    ChunkStartStep(|xs|, k, i);
    xs[ChunkStart(|xs|, k, i)..ChunkStart(|xs|, k, i + 1)]
  }

  /** numpy's `array_split(xs, k)`: `k` contiguous chunks whose sizes differ by at most one. */
  function ArraySplit<T>(xs: seq<T>, k: nat): (chunks: seq<seq<T>>)
    requires k > 0
    ensures |chunks| == k
    ensures forall i :: 0 <= i < k ==> chunks[i] == Chunk(xs, k, i)
  {
    seq(k, i requires 0 <= i < k => Chunk(xs, k, i))
  }

  lemma {:induction false} ArraySplitPrefix<T>(xs: seq<T>, k: nat, i: nat)
    requires k > 0 && i <= k
    ensures ChunkStart(|xs|, k, i) <= |xs|
    ensures Concat(ArraySplit(xs, k)[..i]) == xs[..ChunkStart(|xs|, k, i)]
    decreases i
  {
    ChunkStartBounded(|xs|, k, i);
    if i > 0 {
      ArraySplitPrefix(xs, k, i - 1);
      ChunkStartBounded(|xs|, k, i - 1);
      ChunkStartStep(|xs|, k, i - 1);
      assert ArraySplit(xs, k)[i - 1] == Chunk(xs, k, i - 1);
      ConcatPrefixStep(ArraySplit(xs, k), xs, i, ChunkStart(|xs|, k, i - 1), ChunkStart(|xs|, k, i));
    }
  }

  /** One more chunk extends the covered prefix by that chunk. */
  lemma ConcatPrefixStep<T>(chunks: seq<seq<T>>, xs: seq<T>, i: nat, a: nat, b: nat)
    requires 0 < i <= |chunks| && a <= b <= |xs|
    requires Concat(chunks[..i - 1]) == xs[..a]
    requires chunks[i - 1] == xs[a..b]
    ensures Concat(chunks[..i]) == xs[..b]
  {
    assert chunks[..i] == chunks[..i - 1] + [chunks[i - 1]];
    ConcatSnoc(chunks[..i - 1], chunks[i - 1]);
    assert xs[..b] == xs[..a] + xs[a..b];
  }

  /** The chunks of `array_split`, concatenated in order, give back the input. */
  lemma ArraySplitConcat<T>(xs: seq<T>, k: nat)
    requires k > 0
    ensures Concat(ArraySplit(xs, k)) == xs
  {
    ArraySplitPrefix(xs, k, k);
    assert ArraySplit(xs, k)[..k] == ArraySplit(xs, k);
  }

  /** The phase batches of one retrieval: one batch when the ids fit in a request,
      else `ceil(n / maxPhases)` chunks of `array_split`. Batching loses nothing, adds
      nothing, respects the per-request ceiling, balances the batch sizes and, when it
      splits, never produces an empty batch. */
  function Batches(phases: seq<int>, maxPhases: nat): (batches: seq<seq<int>>)
    requires maxPhases > 0
    ensures Concat(batches) == phases
    ensures forall i :: 0 <= i < |batches| ==> |batches[i]| <= maxPhases
    ensures forall i, j :: 0 <= i < |batches| && 0 <= j < |batches| ==> |batches[i]| <= |batches[j]| + 1
    ensures |phases| <= maxPhases ==> |batches| == 1
    ensures |phases| > maxPhases ==>
      |batches| == CeilDiv(|phases|, maxPhases) && forall i :: 0 <= i < |batches| ==> |batches[i]| >= 1
  {
    if |phases| > maxPhases then
      SplitBatches(phases, maxPhases);
      ArraySplit(phases, CeilDiv(|phases|, maxPhases))
    else
      assert Concat([phases]) == phases + Concat([]);
      [phases]
  }

  /** The chunks of a split batch: they give back the ids, and each holds at least one
      and at most `maxPhases` ids, the sizes differing by at most one. */
  lemma {:induction false} SplitBatches(phases: seq<int>, maxPhases: nat)
    requires 0 < maxPhases < |phases|
    ensures var chunks := ArraySplit(phases, CeilDiv(|phases|, maxPhases));
      && Concat(chunks) == phases
      && (forall i :: 0 <= i < |chunks| ==> 1 <= |chunks[i]| <= maxPhases)
      && (forall i, j :: 0 <= i < |chunks| && 0 <= j < |chunks| ==> |chunks[i]| <= |chunks[j]| + 1)
  {
    var n, k := |phases|, CeilDiv(|phases|, maxPhases);
    ArraySplitConcat(phases, k);
    DivBelow(n, k, maxPhases);
    CeilDivAtMost(n, maxPhases);
    DivAtLeastOne(n, k);
    var chunks := ArraySplit(phases, k);
    forall i | 0 <= i < |chunks|
      ensures n / k <= |chunks[i]| <= n / k + 1
      ensures |chunks[i]| <= maxPhases
    {
      assert chunks[i] == Chunk(phases, k, i);
    }
  }

  lemma DivAtLeastOne(n: nat, k: nat)
    requires 0 < k <= n
    ensures n / k >= 1
  {
  }

  lemma DivBelow(n: nat, k: nat, m: nat)
    requires k > 0 && n <= k * m
    ensures n / k <= m
    ensures n % k > 0 ==> n / k < m
  {
  }

  lemma CeilDivAtMost(n: nat, m: nat)
    requires m > 0 && n > 0
    ensures CeilDiv(n, m) <= n
  {
    var q := CeilDiv(n, m);
    if q > 0 {
      MulAtLeast(q - 1, m);
    }
  }

  lemma MulAtLeast(a: nat, m: nat)
    requires m > 0
    ensures a * m >= a
  {
    assert a * m == a * (m - 1) + a;
  }
}

=== FILE: crystal.dfy ===
/** Turning a retrieved row into a crystal structure description (`compile_crystal` and
    `get_crystals` in mpds_client/retrieve_MPDS.py), up to the hand-over to the
    structure libraries, which are not part of this model. */
module Crystal {
  import opened Results
  import opened Json
  import opened Decimal
  import opened Errors
  import opened Projection

  /** What `compile_crystal` raises. */
  datatype Raised =
    | ValueError(msg: string)       // a row that is too short
    | InvalidLiteral(text: string)  // `int()` of a string that is not a decimal integer
    | TypeError(culprit: Json)      // `int()` of a value that is not a number or string, or a non-list
    | IndexError                    // fewer element symbols than basis positions
    | Api(error: ApiError)          // no structure library for the flavor

  const ShortRow: string :=
    "Must supply a data row that ends with the entries 'cell_abc', 'sg_n', 'setting', 'basis_noneq', 'els_noneq'"

  const Unavailable: ApiError := ApiError("Crystal structure treatment unavailable")

  /** The last five cells of a crystal row, the space group number converted. */
  datatype Parts = Parts(cellAbc: Json, sgN: int, setting: Json, basisNoneq: Json, elsNoneq: Json)

  /** One atom handed to the ASE builder: an element symbol and a position. */
  datatype Atom = Atom(symbol: Json, position: Json)

  /** The structure handed to one of the two libraries. */
  datatype Structure =
    | PmgStructure(parts: Parts)
    | AseCrystal(parts: Parts, atoms: seq<Atom>, setting: int)

  /** A string `int()` accepts, in the form `str()` of an integer produces. */
  predicate IntLiteral(s: string) {
    IsNumeral(s) && s != "-"
  }

  /** Python's `int()` applied to a decoded JSON value. */
  function ToInt(j: Json): (r: Result<int, Raised>)
    ensures r.Success? <==> j.JNum? || j.JBool? || (j.JStr? && IntLiteral(j.s))
    ensures j.JNum? ==> r == Success(j.n)
    ensures j.JBool? ==> r == Success(if j.b then 1 else 0)
    ensures j.JStr? && IntLiteral(j.s) ==> r == Success(ParseInt(j.s))
    ensures j.JStr? && !IntLiteral(j.s) ==> r == Failure(InvalidLiteral(j.s))
    ensures r.Failure? && !j.JStr? ==> r == Failure(TypeError(j))
  {
    match j
    case JNum(n) => Success(n)
    case JBool(b) => Success(if b then 1 else 0)
    case JStr(s) => if IntLiteral(s) then Success(ParseInt(s)) else Failure(InvalidLiteral(s))
    case _ => Failure(TypeError(j))
  }

  /** `int()` reads back what `str()` printed. */
  lemma ToIntRoundTrip(n: int)
    ensures ToInt(JStr(IntToString(n))) == Success(n)
    ensures ToInt(JNum(n)) == Success(n)
  {
    var s := IntToString(n);
    assert s != "-" by {
      if n < 0 {
        assert s == "-" + NatToString(-n);
      }
    }
    ParseIntToString(n);
  }

  /** The ASE setting: 2 exactly when the cell holds the string "2". */
  function AseSetting(setting: Json): (k: int)
    ensures k == 1 || k == 2
    ensures k == 2 <==> setting == JStr("2")
  {
    if setting == JStr("2") then 2 else 1
  }

  /** Whether `tuple()` accepts a decoded JSON value: a list, a string or an object. */
  predicate Iterable(j: Json) {
    j.JArr? || j.JStr? || j.JObj?
  }

  /** Basis position `k` cannot become an atom: there is no element symbol `k`, or
      `tuple()` refuses the position. */
  predicate Misfit(basis: seq<Json>, els: seq<Json>, k: nat)
    requires k < |basis|
  {
    k >= |els| || !Iterable(basis[k])
  }

  /** The atom loop of the ASE branch: basis position `i` with element symbol `i`, in
      order. At each position the symbol is looked up before the position is converted,
      so the first position that does not fit decides the error. */
  function PairAtoms(basis: seq<Json>, els: seq<Json>): (r: Result<seq<Atom>, Raised>)
    ensures r.Success? <==> forall k :: 0 <= k < |basis| ==> !Misfit(basis, els, k)
    ensures r.Success? ==> |basis| <= |els| && |r.value| == |basis|
    ensures r.Success? ==> forall i :: 0 <= i < |basis| ==> r.value[i] == Atom(els[i], basis[i])
    ensures r.Failure? ==> r.error == IndexError || r.error.TypeError?
    decreases |basis|
  {
    if |basis| == 0 then Success([])
    else if |els| == 0 then assert Misfit(basis, els, 0); Failure(IndexError)
    else if !Iterable(basis[0]) then assert Misfit(basis, els, 0); Failure(TypeError(basis[0]))
    else
      var rest := PairAtoms(basis[1..], els[1..]);
      assert forall k :: 1 <= k < |basis| ==> (Misfit(basis, els, k) <==> Misfit(basis[1..], els[1..], k - 1));
      assert forall k :: 0 <= k < |basis| - 1 ==> (Misfit(basis[1..], els[1..], k) <==> Misfit(basis, els, k + 1));
      match rest
      case Failure(e) => Failure(e)
      case Success(atoms) =>
        assert forall i :: 1 <= i < |basis| ==> atoms[i - 1] == Atom(els[i], basis[i]);
        Success([Atom(els[0], basis[0])] + atoms)
  }

  /** When the atom loop fails, it fails at the first position that does not fit: an
      index error when the symbols have run out, else the type error of the position. */
  lemma {:induction false} PairAtomsFailure(basis: seq<Json>, els: seq<Json>)
    ensures var r := PairAtoms(basis, els);
      r.Failure? ==> exists k :: (0 <= k < |basis| && Misfit(basis, els, k)
        && (forall m :: 0 <= m < k ==> !Misfit(basis, els, m))
        && r.error == (if k >= |els| then IndexError else TypeError(basis[k])))
    decreases |basis|
  {
    var r := PairAtoms(basis, els);
    if r.Failure? && |basis| > 0 {
      if |els| == 0 || !Iterable(basis[0]) {
        assert Misfit(basis, els, 0);
      } else {
        var b, e := basis[1..], els[1..];
        PairAtomsFailure(b, e);
        var k :| 0 <= k < |b| && Misfit(b, e, k) && (forall m :: 0 <= m < k ==> !Misfit(b, e, m))
          && PairAtoms(b, e).error == (if k >= |e| then IndexError else TypeError(b[k]));
        assert Misfit(basis, els, k + 1);
        assert forall m :: 0 <= m < k + 1 ==> !Misfit(basis, els, m) by {
          forall m | 0 <= m < k + 1 ensures !Misfit(basis, els, m) {
            if m > 0 {
              assert !Misfit(b, e, m - 1);
            }
          }
        }
      }
    }
  }

  /** The atoms of the ASE branch from the basis and element cells. A basis that is not
      a list, or a non-empty one with an element cell that is not a list, raises a type
      error; an empty basis reads no element symbol. */
  function AseAtoms(basis: Json, els: Json): (r: Result<seq<Atom>, Raised>)
    ensures !basis.JArr? ==> r == Failure(TypeError(basis))
    ensures basis.JArr? && |basis.items| > 0 && !els.JArr? ==> r == Failure(TypeError(els))
    ensures basis.JArr? && |basis.items| == 0 ==> r == Success([])
    ensures basis.JArr? && els.JArr? ==> r == PairAtoms(basis.items, els.items)
    ensures r.Failure? ==> r.error == IndexError || r.error.TypeError?
  {
    match basis
    case JArr(positions) =>
      if |positions| == 0 then Success([])
      else if els.JArr? then PairAtoms(positions, els.items)
      else Failure(TypeError(els))
    case _ => Failure(TypeError(basis))
  }

  /** `compile_crystal(datarow, flavor)`, with the availability of the two structure
      libraries given as `usePmg` and `useAse`. The outcome by cases, in the order of the
      checks: no structure (an empty row, or one whose last cell is falsy), a short row,
      a space group cell `int()` refuses, a missing library, or a structure built from
      the last five cells in order. */
  function CompileCrystal(row: seq<Json>, flavor: string, usePmg: bool, useAse: bool): (r: Result<Option<Structure>, Raised>)
    ensures r == Success(None) <==> |row| == 0 || !Truthy(row[|row| - 1])
    ensures r == Failure(ValueError(ShortRow)) <==> |row| > 0 && Truthy(row[|row| - 1]) && |row| < 5
    ensures |row| >= 5 && Truthy(row[|row| - 1]) && ToInt(row[|row| - 4]).Failure? ==>
      r == Failure(ToInt(row[|row| - 4]).error)
    ensures |row| >= 5 && Truthy(row[|row| - 1]) && ToInt(row[|row| - 4]).Success? ==>
      && (!(flavor == "pmg" && usePmg) && !(flavor == "ase" && useAse) <==> r == Failure(Api(Unavailable)))
      && (r.Success? ==>
            && [r.value.value.parts.cellAbc, JNum(r.value.value.parts.sgN), r.value.value.parts.setting,
                r.value.value.parts.basisNoneq, r.value.value.parts.elsNoneq]
               == row[|row| - 5 ..][1 := JNum(ToInt(row[|row| - 4]).value)]
            && (r.value.value.PmgStructure? <==> flavor == "pmg" && usePmg))
    ensures |row| >= 5 && Truthy(row[|row| - 1]) && ToInt(row[|row| - 4]).Success? && flavor == "pmg" && usePmg ==>
      r == Success(Some(PmgStructure(Parts(row[|row| - 5], ToInt(row[|row| - 4]).value, row[|row| - 3], row[|row| - 2], row[|row| - 1]))))
    ensures |row| >= 5 && Truthy(row[|row| - 1]) && ToInt(row[|row| - 4]).Success? && flavor == "ase" && useAse ==>
      var atoms := AseAtoms(row[|row| - 2], row[|row| - 1]);
      && (atoms.Failure? ==> r == Failure(atoms.error))
      && (atoms.Success? ==>
            && r.Success? && r.value.Some? && r.value.value.AseCrystal?
            && r.value.value.atoms == atoms.value
            && r.value.value.setting == AseSetting(row[|row| - 3]))
  {
    if |row| == 0 || !Truthy(row[|row| - 1]) then Success(None)
    else if |row| < 5 then Failure(ValueError(ShortRow))
    else
      var n := |row|;
      var sg :- ToInt(row[n - 4]);
      var parts := Parts(row[n - 5], sg, row[n - 3], row[n - 2], row[n - 1]);
      var tail := row[n - 5 ..][1 := JNum(sg)];
      assert tail[0] == row[n - 5] && tail[2] == row[n - 3];
      assert tail[3] == row[n - 2] && tail[4] == row[n - 1];
      if flavor == "pmg" && usePmg then Success(Some(PmgStructure(parts)))
      else if flavor == "ase" && useAse then
        var atoms :- AseAtoms(parts.basisNoneq, parts.elsNoneq);
        Success(Some(AseCrystal(parts, atoms, AseSetting(parts.setting))))
      else Failure(Api(Unavailable))
  }

  /** The fields `get_crystals` asks for: five cells of each structure entry, none of the
      others. */
  function CrystalFields(): map<string, seq<FieldSpec>> {
    map["S" := [PathSpec("cell_abc"), PathSpec("sg_n"), PathSpec("setting"), PathSpec("basis_noneq"), PathSpec("els_noneq")]]
  }

  /** Rows projected with the crystal fields never trip the short-row check: a structure
      entry yields five cells, the other kinds none, which reads as no structure. */
  lemma CrystalRowsNeverShort(rec: Record, search: Search, flavor: string, usePmg: bool, useAse: bool)
    ensures Compile(CrystalFields()).Some?
    ensures var r := Project(rec, Compile(CrystalFields()).value, search);
      r.Success? ==> (
        && (|r.value| == 5 <==> rec.objectType == "S")
        && CompileCrystal(r.value, flavor, usePmg, useAse) != Failure(ValueError(ShortRow)))
  {
    CrystalFieldsCompiled();
    var c := Compile(CrystalFields()).value;
    var r := Project(rec, c, search);
    if r.Success? {
      if rec.objectType != "S" {
        assert SelectorsFor(c, rec.objectType) == [];
      }
    }
  }

  /** The crystal fields compile to five selectors for structures and none otherwise. */
  lemma CrystalFieldsCompiled()
    ensures Compile(CrystalFields()).Some?
    ensures Compile(CrystalFields()).value.Keys == {"S"}
    ensures |Compile(CrystalFields()).value["S"]| == 5
  {
    assert CrystalFields().Keys == {"S"};
  }

  /** `get_crystals` after retrieval: the structures of the rows that hold one, in order;
      the first error aborts, so it succeeds exactly when every row compiles. */
  function Crystals(rows: seq<seq<Json>>, flavor: string, usePmg: bool, useAse: bool): (r: Result<seq<Structure>, Raised>)
    ensures r.Success? <==> forall i :: 0 <= i < |rows| ==> CompileCrystal(rows[i], flavor, usePmg, useAse).Success?
    decreases |rows|
  {
    if |rows| == 0 then Success([])
    else
      var first :- CompileCrystal(rows[0], flavor, usePmg, useAse);
      assert forall i :: 1 <= i < |rows| ==> rows[i] == rows[1..][i - 1];
      var rest :- Crystals(rows[1..], flavor, usePmg, useAse);
      match first
      case None => Success(rest)
      case Some(s) => Success([s] + rest)
  }

  /** The rows that hold a structure: a non-empty row with a truthy last cell. */
  function Holding(rows: seq<seq<Json>>): seq<seq<Json>>
    decreases |rows|
  {
    if |rows| == 0 then []
    else if |rows[0]| == 0 || !Truthy(rows[0][|rows[0]| - 1]) then Holding(rows[1..])
    else [rows[0]] + Holding(rows[1..])
  }

  /** The rows kept are exactly the rows that hold a structure. */
  lemma {:induction false} HoldingSelects(rows: seq<seq<Json>>)
    ensures forall x :: x in Holding(rows) ==> x in rows && |x| > 0 && Truthy(x[|x| - 1])
    ensures forall x :: x in rows && |x| > 0 && Truthy(x[|x| - 1]) ==> x in Holding(rows)
    decreases |rows|
  {
    if |rows| > 0 {
      var rest := rows[1..];
      HoldingSelects(rest);
      var h, h' := Holding(rows), Holding(rest);
      var kept := |rows[0]| > 0 && Truthy(rows[0][|rows[0]| - 1]);
      assert h == if kept then [rows[0]] + h' else h';
      forall x | x in h ensures x in rows && |x| > 0 && Truthy(x[|x| - 1]) {
        if x != rows[0] {
          assert x in h';
          assert x in rest;
        }
      }
      forall x | x in rows && |x| > 0 && Truthy(x[|x| - 1]) ensures x in h {
        if x != rows[0] {
          assert x in rest by {
            var i :| 0 <= i < |rows| && rows[i] == x;
            assert rest[i - 1] == x;
          }
        }
      }
    }
  }

  /** On success `get_crystals` yields one structure per row that holds one, built from
      that row, in order. */
  lemma {:induction false} CrystalsFromHolding(rows: seq<seq<Json>>, flavor: string, usePmg: bool, useAse: bool)
    ensures var r := Crystals(rows, flavor, usePmg, useAse);
      r.Success? ==> (
        && |r.value| == |Holding(rows)|
        && forall i :: 0 <= i < |r.value| ==>
             CompileCrystal(Holding(rows)[i], flavor, usePmg, useAse) == Success(Some(r.value[i])))
    decreases |rows|
  {
    if |rows| > 0 {
      CrystalsFromHolding(rows[1..], flavor, usePmg, useAse);
      var r := Crystals(rows, flavor, usePmg, useAse);
      if r.Success? {
        var rest := Crystals(rows[1..], flavor, usePmg, useAse);
        var first := CompileCrystal(rows[0], flavor, usePmg, useAse);
        var h, h' := Holding(rows), Holding(rows[1..]);
        if first.value.Some? {
          assert r.value == [first.value.value] + rest.value;
          assert h == [rows[0]] + h';
          forall i | 1 <= i < |r.value|
            ensures CompileCrystal(h[i], flavor, usePmg, useAse) == Success(Some(r.value[i]))
          {
            assert h[i] == h'[i - 1] && r.value[i] == rest.value[i - 1];
          }
        } else {
          assert r.value == rest.value;
          assert h == h';
        }
      }
    }
  }
}

=== FILE: decimal.dfy ===
/** Python's `str(n)` / `'%s' % n` for integers, and its inverse. */
module Decimal {

  predicate IsDigit(c: char) {
    '0' <= c <= '9'
  }

  /** The characters `str` of an integer can produce: digits, and a leading minus. */
  predicate IsNumeral(s: string) {
    && |s| >= 1
    && (forall i :: 0 <= i < |s| ==> IsDigit(s[i]) || (i == 0 && s[i] == '-'))
  }

  function DigitChar(d: nat): (c: char)
    requires d < 10
    ensures IsDigit(c)
    ensures DigitValue(c) == d
  {
    (('0' as int) + d) as char
  }

  /** The value of a digit character; anything else reads as 0. */
  function DigitValue(c: char): (d: nat)
    ensures d < 10
  {
    if IsDigit(c) then (c as int) - ('0' as int) else 0
  }

  /** Decimal digits of `n`, most significant first, without leading zeros. */
  function NatToString(n: nat): (s: string)
    ensures |s| >= 1
    ensures forall i :: 0 <= i < |s| ==> IsDigit(s[i])
    ensures s[0] == '0' <==> n == 0
    decreases n
  {
    if n < 10 then [DigitChar(n)] else NatToString(n / 10) + [DigitChar(n % 10)]
  }

  /** The digits of a numeral, after its sign if it has one. */
  function Digits(s: string): string
    requires IsNumeral(s)
  {
    if s[0] == '-' then s[1..] else s
  }

  /** A numeral as `str` writes it: at least one digit, no leading zero, and no sign on
      zero. */
  predicate IsCanonical(s: string) {
    && IsNumeral(s)
    && |Digits(s)| >= 1
    && (Digits(s)[0] == '0' ==> s == "0")
  }

  /** `str(n)` for a Python int. */
  function IntToString(n: int): (s: string)
    ensures IsCanonical(s)
    ensures s[0] == '-' <==> n < 0
  {
    if n < 0 then "-" + NatToString(-n) else NatToString(n)
  }

  /** Reads a string of digits back as a natural number (the inverse of NatToString). */
  function ParseNat(s: string): nat
    decreases |s|
  {
    if |s| == 0 then 0 else 10 * ParseNat(s[..|s| - 1]) + DigitValue(s[|s| - 1])
  }

  /** Reads an optionally signed numeral back as an integer (the inverse of IntToString). */
  function ParseInt(s: string): int {
    if |s| > 0 && s[0] == '-' then 0 - ParseNat(s[1..]) as int else ParseNat(s)
  }

  lemma {:induction false} ParseNatToString(n: nat)
    ensures ParseNat(NatToString(n)) == n
    decreases n
  {
    var s := NatToString(n);
    if n >= 10 {
      ParseNatToString(n / 10);
      assert s[..|s| - 1] == NatToString(n / 10);
      assert DigitValue(s[|s| - 1]) == n % 10 by {
        assert s[|s| - 1] == DigitChar(n % 10);
      }
    } else {
      assert s[..|s| - 1] == [];
    }
  }

  /** Printing an integer and reading it back gives the integer: `int(str(n)) == n`. */
  lemma ParseIntToString(n: int)
    ensures ParseInt(IntToString(n)) == n
  {
    if n < 0 {
      var t := NatToString(-n);
      ParseNatToString(-n);
      assert ("-" + t)[1..] == t;
    } else {
      ParseNatToString(n);
    }
  }

  /** A numeral with a leading non-zero digit reads as a positive number. */
  lemma {:induction false} ParseNatPositive(d: string)
    requires |d| >= 1 && (forall i :: 0 <= i < |d| ==> IsDigit(d[i])) && d[0] != '0'
    ensures ParseNat(d) >= 1
    decreases |d|
  {
    if |d| > 1 {
      ParseNatPositive(d[..|d| - 1]);
    }
  }

  /** Digits without a leading zero (or the single digit 0) are what NatToString prints
      for their value. */
  lemma {:induction false} NatToStringParseNat(d: string)
    requires |d| >= 1 && (forall i :: 0 <= i < |d| ==> IsDigit(d[i]))
    requires d[0] == '0' ==> d == "0"
    ensures NatToString(ParseNat(d)) == d
    decreases |d|
  {
    var n := |d|;
    var last := d[n - 1];
    assert DigitChar(DigitValue(last)) == last;
    if n == 1 {
      assert d[..0] == [];
      assert NatToString(ParseNat(d)) == [DigitChar(DigitValue(last))];
    } else {
      var p := d[..n - 1];
      NatToStringParseNat(p);
      ParseNatPositive(p);
      var m := ParseNat(d);
      assert m == 10 * ParseNat(p) + DigitValue(last);
      assert m / 10 == ParseNat(p) && m % 10 == DigitValue(last);
      assert p + [last] == d;
    }
  }

  /** Every canonical numeral is what `str` prints for its value: with `IntToString`
      always canonical, a canonical numeral and its value determine each other. */
  lemma CanonicalPrinted(s: string)
    requires IsCanonical(s)
    ensures IntToString(ParseInt(s)) == s
  {
    if s[0] == '-' {
      var d := s[1..];
      assert d[0] != '0';
      ParseNatPositive(d);
      NatToStringParseNat(d);
      assert "-" + d == s;
    } else {
      NatToStringParseNat(s);
    }
  }

  /** Two integers print alike only when they are equal. */
  lemma IntToStringInjective(m: int, n: int)
    requires IntToString(m) == IntToString(n)
    ensures m == n
  {
    ParseIntToString(m);
    ParseIntToString(n);
  }
}

=== FILE: errors.dfy ===
/** The client's error value and its human-readable form (mpds_client/errors.py). */
module Errors {
  import opened Decimal
  import opened Text

  /** An API error: a message and a numeric code, 0 when the raiser gives none. */
  datatype ApiError = ApiError(msg: string, code: int := 0)

  /** The fixed table of codes the client knows a description for. */
  const Codes: map<int, string> := map[
    204 := "No Results",
    400 := "Bad Request",
    401 := "Unauthorized",
    402 := "Unauthorized (Payment Required)",
    403 := "Forbidden",
    404 := "Not Found",
    413 := "Too Much Data Given",
    429 := "Too Many Requests (Rate Limiting)",
    500 := "Internal Server Error",
    501 := "Not Implemented",
    503 := "Service Unavailable"
  ]

  /** The description of every code outside the table. */
  const Fallback: string := "Communication Error"

  const Prefix: string := "HTTP error code "

  /** `codes.get(code, 'Communication Error')`. */
  function Describe(code: int): (d: string)
    ensures code in Codes ==> d == Codes[code]
    ensures d == Fallback <==> code !in Codes
  {
    if code in Codes then Codes[code] else Fallback
  }

  /** The layout of the rendering: "HTTP error code <numeral>: <description> (<msg>)". */
  function Layout(numeral: string, desc: string, msg: string): (s: string)
    ensures |s| == MessageStart(numeral, desc) + |msg| + 1
    ensures s[..|Prefix|] == Prefix
    ensures s[|Prefix|..|Prefix| + |numeral|] == numeral
    ensures s[|Prefix| + |numeral|..MessageStart(numeral, desc)] == ": " + desc + " ("
    ensures s[MessageStart(numeral, desc)..|s| - 1] == msg
    ensures s[|s| - 1] == ')'
  {
    Prefix + numeral + ": " + desc + " (" + msg + ")"
  }

  /** `str(error)`: the prefix, the code's numeral, a colon, the code's description,
      then the message in parentheses. */
  function Render(e: ApiError): (s: string)
    ensures var numeral, desc := IntToString(e.code), Describe(e.code);
      && |s| == MessageStart(numeral, desc) + |e.msg| + 1
      && s[..|Prefix|] == Prefix
      && s[|Prefix|..|Prefix| + |numeral|] == numeral
      && s[|Prefix| + |numeral|..MessageStart(numeral, desc)] == ": " + desc + " ("
      && s[MessageStart(numeral, desc)..|s| - 1] == e.msg
      && s[|s| - 1] == ')'
  {
    Layout(IntToString(e.code), Describe(e.code), e.msg)
  }

  /** Where the message starts once the numeral is known. */
  function MessageStart(numeral: string, desc: string): nat {
    |Prefix| + |numeral| + 2 + |desc| + 2
  }

  /** Recovers the error from its rendering: the code is the numeral before the first
      colon, which fixes the description and so where the message starts. */
  function ParseRendered(s: string): ApiError {
    if |s| < |Prefix| then ApiError("", 0)
    else
      var numeral := Split(s[|Prefix|..], ':')[0];
      var code := ParseInt(numeral);
      var start := MessageStart(numeral, Describe(code));
      if start <= |s| - 1 then ApiError(s[start..|s| - 1], code) else ApiError("", code)
  }

  /** A numeral without a colon is read back as the text before the first colon, and
      the message sits between the description and the closing parenthesis. */
  lemma LayoutFields(numeral: string, desc: string, msg: string)
    requires ':' !in numeral
    ensures var s := Layout(numeral, desc, msg);
      && Split(s[|Prefix|..], ':')[0] == numeral
      && MessageStart(numeral, desc) <= |s| - 1
      && s[MessageStart(numeral, desc)..|s| - 1] == msg
  {
    var s := Layout(numeral, desc, msg);
    var tail := " " + desc + " (" + msg + ")";
    assert s[|Prefix|..] == numeral + [':'] + tail;
    SplitAtFirstSeparator(numeral, ':', tail);
    var head := Prefix + numeral + ": " + desc + " (";
    assert s == head + msg + ")";
    assert |head| == MessageStart(numeral, desc);
  }

  /** The rendering loses nothing: both the message and the code can be read back. */
  lemma RenderRoundTrip(e: ApiError)
    ensures ParseRendered(Render(e)) == e
  {
    var numeral := IntToString(e.code);
    assert ':' !in numeral by {
      forall i | 0 <= i < |numeral| ensures numeral[i] != ':' {
        assert IsDigit(numeral[i]) || numeral[i] == '-';
      }
    }
    LayoutFields(numeral, Describe(e.code), e.msg);
    ParseIntToString(e.code);
  }

  /** Distinct errors never render to the same text. */
  lemma RenderInjective(e1: ApiError, e2: ApiError)
    requires Render(e1) == Render(e2)
    ensures e1 == e2
  {
    RenderRoundTrip(e1);
    RenderRoundTrip(e2);
  }
}

=== FILE: export.dfy ===
/** Plot payloads written for the visualisation front end (`_get_title` and
    `save_plot` in mpds_client/export_MPDS.py). Files, their names and the number
    formatting of the CSV text are not part of this model: an export yields the
    content it would write. */
module Export {
  import opened Results
  import opened Json
  import opened Decimal
  import opened Text
  import opened Seqs

  /** A column title source: a column name, or an integer. */
  datatype Term = IntTerm(n: int) | StrTerm(s: string)

  /** Titles for the column names the front end knows. */
  const HumanNames: map<string, string> := map[
    "length" := "Bond lengths, A",
    "occurrence" := "Counts",
    "bandgap" := "Band gap, eV"
  ]

  predicate IsUpper(c: char) { 'A' <= c <= 'Z' }
  predicate IsLower(c: char) { 'a' <= c <= 'z' }

  function Upper(c: char): (u: char)
    ensures !IsLower(u)
    ensures !IsLower(c) ==> u == c
  {
    if IsLower(c) then (c as int - 'a' as int + 'A' as int) as char else c
  }

  function Lower(c: char): (l: char)
    ensures !IsUpper(l)
    ensures !IsUpper(c) ==> l == c
  {
    if IsUpper(c) then (c as int - 'A' as int + 'a' as int) as char else c
  }

  function LowerAll(s: string): (r: string)
    ensures |r| == |s|
    ensures forall i :: 0 <= i < |s| ==> r[i] == Lower(s[i])
    decreases |s|
  {
    if |s| == 0 then "" else [Lower(s[0])] + LowerAll(s[1..])
  }

  /** `str.capitalize()`: the first character upper-cased, the others lower-cased. */
  function Capitalize(s: string): (r: string)
    ensures |r| == |s|
    ensures |s| > 0 ==> r[0] == Upper(s[0])
    ensures forall i :: 1 <= i < |s| ==> r[i] == Lower(s[i])
  {
    if |s| == 0 then "" else [Upper(s[0])] + LowerAll(s[1..])
  }

  /** A capitalized string starts with no lower-case letter and has no upper-case
      letter after its first character; capitalizing it again changes nothing. */
  lemma CapitalizeIdempotent(s: string)
    ensures var r := Capitalize(s);
      (|r| > 0 ==> !IsLower(r[0])) && (forall i :: 1 <= i < |r| ==> !IsUpper(r[i]))
    ensures Capitalize(Capitalize(s)) == Capitalize(s)
  {
    var r := Capitalize(s);
    var rr := Capitalize(r);
    assert |rr| == |r|;
    forall i | 0 <= i < |r|
      ensures rr[i] == r[i]
    {
      if i == 0 {
        assert rr[0] == Upper(r[0]);
      } else {
        assert rr[i] == Lower(r[i]);
      }
    }
  }

  /** `_get_title`: an integer is printed, a known name gets its human title, any other
      name is capitalized. */
  function GetTitle(t: Term): (r: string)
    ensures t.IntTerm? ==> IsCanonical(r) && ParseInt(r) == t.n
    ensures t.StrTerm? && t.s in HumanNames ==> r == HumanNames[t.s]
    ensures t.StrTerm? && t.s !in HumanNames ==> r == Capitalize(t.s)
  {
    match t
    case IntTerm(n) =>
      ParseIntToString(n);
      IntToString(n)
    case StrTerm(s) => if s in HumanNames then HumanNames[s] else Capitalize(s)
  }

  /** A table: its column names and its rows, each a map from column name to value. */
  datatype Frame = Frame(columns: seq<string>, rows: seq<map<string, Json>>)

  /** What `save_plot` may be handed: a table, or anything else. */
  datatype Data = DataFrame(frame: Frame) | NotAFrame

  datatype ExportError =
    | TypeError(msg: string)
    | ValueError(msg: string)
    | RuntimeError(msg: string)
    | IndexError      // a plot type given fewer columns than it reads
    | DuplicateError  // `data.select(columns)` with a column named twice

  const NotAFrameMessage: string := "The 'data' parameter must be a Polars DataFrame"
  const MissingColumnsMessage: string := "Some specified columns are not in the DataFrame"

  /** The value of column `c` in a row (a table row holds every one of its columns). */
  function Cell(row: map<string, Json>, c: string): Json {
    if c in row then row[c] else JNull
  }

  /** `data[c].to_list()`. */
  function Column(frame: Frame, c: string): (values: seq<Json>)
    ensures |values| == |frame.rows|
    ensures forall i :: 0 <= i < |frame.rows| ==> values[i] == Cell(frame.rows[i], c)
  {
    seq(|frame.rows|, i requires 0 <= i < |frame.rows| => Cell(frame.rows[i], c))
  }

  /** `data.select(columns)` row by row, as the CSV lines list it. */
  function Select(frame: Frame, columns: seq<string>): (lines: seq<seq<Json>>)
    ensures |lines| == |frame.rows|
    ensures forall i :: 0 <= i < |frame.rows| ==> |lines[i]| == |columns|
    ensures forall i, j :: 0 <= i < |frame.rows| && 0 <= j < |columns| ==> lines[i][j] == Cell(frame.rows[i], columns[j])
  {
    seq(|frame.rows|, i requires 0 <= i < |frame.rows| =>
      seq(|columns|, j requires 0 <= j < |columns| => Cell(frame.rows[i], columns[j])))
  }

  /** The bar payload: the first column's values wrapped in one list as `x`, the
      second's as `y`, and the titles of both column names. */
  function BarPayload(frame: Frame, xcol: string, ycol: string): (p: map<string, Json>)
    ensures p.Keys == {"x", "y", "xtitle", "ytitle"}
    ensures p["x"].JArr? && |p["x"].items| == 1 && p["x"].items[0].JArr?
    ensures var xs := p["x"].items[0].items;
      |xs| == |frame.rows| && forall i :: 0 <= i < |frame.rows| ==> xs[i] == Cell(frame.rows[i], xcol)
    ensures p["y"].JArr? && |p["y"].items| == |frame.rows|
    ensures forall i :: 0 <= i < |frame.rows| ==> p["y"].items[i] == Cell(frame.rows[i], ycol)
  {
    map[
      "x" := JArr([JArr(Column(frame, xcol))]),
      "y" := JArr(Column(frame, ycol)),
      "xtitle" := JStr(GetTitle(StrTerm(xcol))),
      "ytitle" := JStr(GetTitle(StrTerm(ycol)))
    ]
  }

  /** One row of a 3D plot: coordinates, label (`caption`) and mesh id. */
  datatype Point = Point(x: Json, y: Json, z: Json, caption: Json, mesh: Json)

  /** The rows as points, reading columns 0 to 4. */
  function Points(frame: Frame, columns: seq<string>): (pts: seq<Point>)
    requires |columns| >= 5 || |frame.rows| == 0
    ensures |pts| == |frame.rows|
    ensures forall i :: 0 <= i < |frame.rows| ==>
      && pts[i].x == Cell(frame.rows[i], columns[0]) && pts[i].y == Cell(frame.rows[i], columns[1])
      && pts[i].z == Cell(frame.rows[i], columns[2]) && pts[i].caption == Cell(frame.rows[i], columns[3])
      && pts[i].mesh == Cell(frame.rows[i], columns[4])
  {
    seq(|frame.rows|, i requires 0 <= i < |frame.rows| =>
      var row := frame.rows[i];
      Point(Cell(row, columns[0]), Cell(row, columns[1]), Cell(row, columns[2]), Cell(row, columns[3]), Cell(row, columns[4])))
  }

  /** The mesh id the loop compares point `i` with: the previous point's, or none. */
  function Prev(pts: seq<Point>, i: nat): Json
    requires i < |pts|
  {
    if i == 0 then JNull else pts[i - 1].mesh
  }

  /** One turn of the mesh loop: a new, empty mesh when the id changes, then the point
      joins the last mesh if there is one. */
  function AddPoint(meshes: seq<seq<Point>>, p: Point, prev: Json): seq<seq<Point>> {
    var started := if p.mesh != prev then meshes + [[]] else meshes;
    if |started| == 0 then started
    else started[..|started| - 1] + [started[|started| - 1] + [p]]
  }

  /** The meshes of a 3D plot, built point after point: no mesh is left empty, and
      there are never more meshes than points. */
  function Meshes(pts: seq<Point>): (ms: seq<seq<Point>>)
    ensures |ms| <= |pts|
    ensures forall j :: 0 <= j < |ms| ==> |ms[j]| > 0
    decreases |pts|
  {
    if |pts| == 0 then []
    else
      var ms0 := Meshes(pts[..|pts| - 1]);
      AddPointShape(ms0, pts[|pts| - 1], Prev(pts, |pts| - 1));
      AddPoint(ms0, pts[|pts| - 1], Prev(pts, |pts| - 1))
  }

  /** How many leading points carry no mesh id; none of them joins a mesh. */
  function Lead(pts: seq<Point>): (n: nat)
    ensures n <= |pts|
    decreases |pts|
  {
    if |pts| == 0 then 0
    else
      var k := Lead(pts[..|pts| - 1]);
      if k == |pts| - 1 && pts[|pts| - 1].mesh == JNull then |pts| else k
  }

  /** How many points carry a different mesh id from the point before them. */
  function Starts(pts: seq<Point>): nat
    decreases |pts|
  {
    if |pts| == 0 then 0
    else Starts(pts[..|pts| - 1]) + (if pts[|pts| - 1].mesh != Prev(pts, |pts| - 1) then 1 else 0)
  }

  predicate Uniform(mesh: seq<Point>) {
    forall a :: 0 <= a < |mesh| ==> mesh[a].mesh == mesh[0].mesh
  }

  lemma AddPointShape(meshes: seq<seq<Point>>, p: Point, prev: Json)
    ensures p.mesh != prev ==> AddPoint(meshes, p, prev) == meshes + [[p]]
    ensures p.mesh == prev && |meshes| == 0 ==> AddPoint(meshes, p, prev) == []
    ensures p.mesh == prev && |meshes| > 0 ==>
      AddPoint(meshes, p, prev) == meshes[..|meshes| - 1] + [meshes[|meshes| - 1] + [p]]
  {
    if p.mesh != prev {
      var started := meshes + [[]];
      assert started[..|started| - 1] == meshes && started[|started| - 1] + [p] == [p];
    }
  }

  /** Read in order, the meshes give back the points after the leading ones without id. */
  lemma {:induction false} MeshesConcat(pts: seq<Point>)
    ensures Concat(Meshes(pts)) == pts[Lead(pts)..]
    decreases |pts|
  {
    if |pts| > 0 {
      MeshesConcat(pts[..|pts| - 1]);
      MeshesConcatStep(pts);
    }
  }

  lemma {:induction false} MeshesConcatStep(pts: seq<Point>)
    requires |pts| > 0
    requires Concat(Meshes(pts[..|pts| - 1])) == pts[..|pts| - 1][Lead(pts[..|pts| - 1])..]
    ensures Concat(Meshes(pts)) == pts[Lead(pts)..]
  {
    var n := |pts|;
    var init := pts[..n - 1];
    var p := pts[n - 1];
    var prev := Prev(pts, n - 1);
    var ms0 := Meshes(init);
    var k := Lead(init);
    LeadStep(pts);
    MeshesStep(pts, ms0, p, prev);
    if p.mesh != prev {
      ConcatOpenSlice(ms0, pts, k);
    } else if |ms0| > 0 {
      ConcatJoinSlice(ms0, pts, k);
    }
  }

  /** The meshes after one more point, by the three cases of the loop. */
  lemma {:induction false} MeshesStep(pts: seq<Point>, ms0: seq<seq<Point>>, p: Point, prev: Json)
    requires |pts| > 0
    requires ms0 == Meshes(pts[..|pts| - 1]) && p == pts[|pts| - 1] && prev == Prev(pts, |pts| - 1)
    ensures p.mesh != prev ==> Meshes(pts) == ms0 + [[p]]
    ensures p.mesh == prev && |ms0| == 0 ==> Meshes(pts) == []
    ensures p.mesh == prev && |ms0| > 0 ==> Meshes(pts) == ms0[..|ms0| - 1] + [ms0[|ms0| - 1] + [p]]
  {
    AddPointShape(ms0, p, prev);
  }

  /** A new part holding the last item extends a flattening of the items before it. */
  lemma ConcatOpenSlice<T>(parts: seq<seq<T>>, xs: seq<T>, k: nat)
    requires 0 < |xs| && k < |xs| && Concat(parts) == xs[..|xs| - 1][k..]
    ensures Concat(parts + [[xs[|xs| - 1]]]) == xs[k..]
  {
    ConcatSnoc(parts, [xs[|xs| - 1]]);
    SliceSnoc(xs, k);
  }

  /** The last item added to the last part extends a flattening of the items before it. */
  lemma ConcatJoinSlice<T>(parts: seq<seq<T>>, xs: seq<T>, k: nat)
    requires |parts| > 0 && 0 < |xs| && k < |xs| && Concat(parts) == xs[..|xs| - 1][k..]
    ensures Concat(parts[..|parts| - 1] + [parts[|parts| - 1] + [xs[|xs| - 1]]]) == xs[k..]
  {
    var front, last := parts[..|parts| - 1], parts[|parts| - 1];
    assert parts == front + [last];
    ConcatExtendLast(front, last, xs[|xs| - 1]);
    SliceSnoc(xs, k);
  }

  /** Where the leading points without id end once one more point is read. */
  lemma LeadStep(pts: seq<Point>)
    requires |pts| > 0
    ensures var n := |pts|;
      var p, prev, k := pts[n - 1], Prev(pts, n - 1), Lead(pts[..n - 1]);
      && k < n
      && (p.mesh != prev ==> Lead(pts) == k)
      && (p.mesh == prev && |Meshes(pts[..n - 1])| == 0 ==> Lead(pts) == n)
      && (p.mesh == prev && |Meshes(pts[..n - 1])| > 0 ==> Lead(pts) == k)
  {
    LeadNoMeshes(pts[..|pts| - 1]);
    LeadBeforeMesh(pts);
  }

  /** The leading points without id, one point later. */
  lemma LeadBeforeMesh(pts: seq<Point>)
    requires |pts| > 0
    ensures var n := |pts|;
      && (Lead(pts[..n - 1]) == n - 1 ==> Prev(pts, n - 1) == JNull)
      && (Lead(pts) == n || Lead(pts) == Lead(pts[..n - 1]))
      && (Lead(pts) == n <==> Lead(pts[..n - 1]) == n - 1 && pts[n - 1].mesh == JNull)
  {
    var n := |pts|;
    var init := pts[..n - 1];
    var k := Lead(init);
    assert pts[..n] == pts;
    assert Lead(pts) == if k == n - 1 && pts[n - 1].mesh == JNull then n else k;
    LeadNoMeshes(init);
    if k == n - 1 && n >= 2 {
      assert init[n - 2] == pts[n - 2];
      assert Prev(pts, n - 1) == init[n - 2].mesh;
    }
  }

  lemma SliceSnoc<T>(xs: seq<T>, k: nat)
    requires 0 < |xs| && k < |xs|
    ensures xs[k..] == xs[..|xs| - 1][k..] + [xs[|xs| - 1]]
  {
  }

  /** No mesh is empty, each carries one id, and neighbouring meshes carry different ids. */
  predicate Shaped(ms: seq<seq<Point>>) {
    && (forall j :: 0 <= j < |ms| ==> |ms[j]| > 0 && Uniform(ms[j]))
    && (forall j :: 0 <= j < |ms| - 1 ==> ms[j][|ms[j]| - 1].mesh != ms[j + 1][0].mesh)
  }

  /** The meshes are shaped, and the last point is the last of the last mesh. */
  lemma {:induction false} MeshesShape(pts: seq<Point>)
    ensures Shaped(Meshes(pts))
    ensures |Meshes(pts)| > 0 ==> |pts| > 0 && Last(Last(Meshes(pts))) == pts[|pts| - 1]
    decreases |pts|
  {
    if |pts| > 0 {
      MeshesShape(pts[..|pts| - 1]);
      MeshesShapeStep(pts);
    }
  }

  lemma {:induction false} MeshesShapeStep(pts: seq<Point>)
    requires |pts| > 0
    requires var ms0 := Meshes(pts[..|pts| - 1]);
      Shaped(ms0) && (|ms0| > 0 ==> |pts| > 1 && Last(Last(ms0)) == pts[|pts| - 2])
    ensures Shaped(Meshes(pts))
    ensures |Meshes(pts)| > 0 ==> Last(Last(Meshes(pts))) == pts[|pts| - 1]
  {
    var n := |pts|;
    var ms0 := Meshes(pts[..n - 1]);
    var p := pts[n - 1];
    var prev := Prev(pts, n - 1);
    assert Meshes(pts) == AddPoint(ms0, p, prev);
    AddPointShape(ms0, p, prev);
    if p.mesh != prev {
      ShapedOpen(ms0, p);
    } else if |ms0| > 0 {
      ShapedJoin(ms0, p);
    }
  }

  function Last<T>(xs: seq<T>): T
    requires |xs| > 0
  {
    xs[|xs| - 1]
  }

  /** A point with a new id opens a mesh of its own. */
  lemma ShapedOpen(ms: seq<seq<Point>>, p: Point)
    requires Shaped(ms)
    requires |ms| > 0 ==> Last(Last(ms)).mesh != p.mesh
    ensures Shaped(ms + [[p]])
  {
    var r := ms + [[p]];
    assert forall j :: 0 <= j < |ms| ==> r[j] == ms[j];
  }

  /** A point with the current id joins the last mesh. */
  lemma ShapedJoin(ms: seq<seq<Point>>, p: Point)
    requires Shaped(ms) && |ms| > 0
    requires Last(Last(ms)).mesh == p.mesh
    ensures Shaped(ms[..|ms| - 1] + [Last(ms) + [p]])
  {
    var last := Last(ms);
    var r := ms[..|ms| - 1] + [last + [p]];
    assert forall j :: 0 <= j < |ms| - 1 ==> r[j] == ms[j];
    assert Uniform(last + [p]) by {
      assert Uniform(last);
    }
    assert r[|r| - 1][0] == last[0];
  }

  /** One mesh per change of mesh id. */
  lemma {:induction false} MeshesCount(pts: seq<Point>)
    ensures |Meshes(pts)| == Starts(pts)
    decreases |pts|
  {
    if |pts| > 0 {
      var n := |pts|;
      var init := pts[..n - 1];
      MeshesCount(init);
      AddPointShape(Meshes(init), pts[n - 1], Prev(pts, n - 1));
      LeadNoMeshes(init);
      assert |Meshes(init)| == 0 ==> Starts(init) == 0;
    }
  }

  /** The meshes are the maximal runs of equal mesh ids after the leading points without
      one: read in order they give back those points, none is empty, each carries one
      id, neighbours carry different ids, and there is one per change of id. */
  lemma {:induction false} MeshesAreRuns(pts: seq<Point>)
    ensures var ms := Meshes(pts);
      && Concat(ms) == pts[Lead(pts)..]
      && (forall j :: 0 <= j < |ms| ==> |ms[j]| > 0 && Uniform(ms[j]))
      && (forall j :: 0 <= j < |ms| - 1 ==> ms[j][|ms[j]| - 1].mesh != ms[j + 1][0].mesh)
      && |ms| == Starts(pts)
  {
    MeshesConcat(pts);
    MeshesShape(pts);
    MeshesCount(pts);
    assert Shaped(Meshes(pts));
  }

  /** No mesh is opened exactly while every point so far carries no id. */
  /** A turn of the mesh loop leaves no mesh only when there was none and the id did not change. */
  lemma AddPointEmpty(meshes: seq<seq<Point>>, p: Point, prev: Json)
    ensures |AddPoint(meshes, p, prev)| == 0 <==> |meshes| == 0 && p.mesh == prev
  {
  }

  /** The leading points carry no mesh id. */
  lemma {:induction false} LeadNoIds(pts: seq<Point>)
    ensures Lead(pts) == |pts| ==> forall i :: 0 <= i < |pts| ==> pts[i].mesh == JNull
    decreases |pts|
  {
    if |pts| > 0 && Lead(pts) == |pts| {
      var n := |pts|;
      var init := pts[..n - 1];
      LeadNoIds(init);
      forall i | 0 <= i < n ensures pts[i].mesh == JNull {
        if i < n - 1 { assert pts[i] == init[i]; }
      }
    }
  }

  lemma {:induction false} LeadNoMeshes(pts: seq<Point>)
    ensures |Meshes(pts)| == 0 <==> Lead(pts) == |pts|
    ensures Lead(pts) == |pts| ==> forall i :: 0 <= i < |pts| ==> pts[i].mesh == JNull
    decreases |pts|
  {
    LeadNoIds(pts);
    if |pts| > 0 {
      var n := |pts|;
      var init, p, prev := pts[..n - 1], pts[n - 1], Prev(pts, n - 1);
      LeadNoMeshes(init);
      AddPointEmpty(Meshes(init), p, prev);
      if Lead(init) == n - 1 && n >= 2 {
        assert prev == init[n - 2].mesh;
      }
    }
  }

  /** When every point has a mesh id, the meshes hold all points in order, one mesh per
      maximal run of equal ids. */
  lemma MeshesCoverAll(pts: seq<Point>)
    requires forall i :: 0 <= i < |pts| ==> pts[i].mesh != JNull
    ensures Concat(Meshes(pts)) == pts
    ensures |Meshes(pts)| == Starts(pts)
  {
    MeshesAreRuns(pts);
    LeadNoMeshes(pts);
    if |pts| > 0 {
      assert Lead(pts) != |pts|;
      LeadIsZero(pts);
    }
  }

  lemma {:induction false} LeadIsZero(pts: seq<Point>)
    requires forall i :: 0 <= i < |pts| ==> pts[i].mesh != JNull
    ensures Lead(pts) == 0
    decreases |pts|
  {
    if |pts| > 0 {
      LeadIsZero(pts[..|pts| - 1]);
    }
  }

  function Xs(pts: seq<Point>): seq<Json> { seq(|pts|, i requires 0 <= i < |pts| => pts[i].x) }
  function Ys(pts: seq<Point>): seq<Json> { seq(|pts|, i requires 0 <= i < |pts| => pts[i].y) }
  function Zs(pts: seq<Point>): seq<Json> { seq(|pts|, i requires 0 <= i < |pts| => pts[i].z) }
  function Labels(pts: seq<Point>): seq<Json> { seq(|pts|, i requires 0 <= i < |pts| => pts[i].caption) }

  /** The `points` object of a 3D plot: the coordinates and labels, each in point order. */
  function PointsJson(pts: seq<Point>): (j: Json)
    ensures j.JObj? && "x" in j.members && "y" in j.members && "z" in j.members && "labels" in j.members
    ensures j.members["x"] == JArr(Xs(pts)) && j.members["y"] == JArr(Ys(pts))
    ensures j.members["z"] == JArr(Zs(pts)) && j.members["labels"] == JArr(Labels(pts))
  {
    JObj(map["x" := JArr(Xs(pts)), "y" := JArr(Ys(pts)), "z" := JArr(Zs(pts)), "labels" := JArr(Labels(pts))])
  }

  /** One mesh object: the coordinates of its points, in point order. */
  function MeshJson(mesh: seq<Point>): (j: Json)
    ensures j.JObj? && "x" in j.members && "y" in j.members && "z" in j.members
    ensures j.members["x"] == JArr(Xs(mesh)) && j.members["y"] == JArr(Ys(mesh)) && j.members["z"] == JArr(Zs(mesh))
  {
    JObj(map["x" := JArr(Xs(mesh)), "y" := JArr(Ys(mesh)), "z" := JArr(Zs(mesh))])
  }

  /** The `meshes` list of a 3D plot: one mesh object per mesh, in order. */
  function MeshesJson(meshes: seq<seq<Point>>): (js: seq<Json>)
    ensures |js| == |meshes|
    ensures forall j :: 0 <= j < |meshes| ==> js[j] == MeshJson(meshes[j])
    decreases |meshes|
  {
    if |meshes| == 0 then [] else [MeshJson(meshes[0])] + MeshesJson(meshes[1..])
  }

  /** The `x` list of a JSON mesh object, or nothing for any other value. */
  function XsOf(mesh: Json): seq<Json> {
    if mesh.JObj? && "x" in mesh.members && mesh.members["x"].JArr? then mesh.members["x"].items else []
  }

  /** The `x` lists of JSON mesh objects, one after another. */
  function JsonXs(meshes: seq<Json>): seq<Json>
    decreases |meshes|
  {
    if |meshes| == 0 then [] else XsOf(meshes[0]) + JsonXs(meshes[1..])
  }

  /** The x values of the meshes, mesh after mesh. */
  function MeshXs(meshes: seq<seq<Point>>): seq<Json>
    decreases |meshes|
  {
    if |meshes| == 0 then [] else Xs(meshes[0]) + MeshXs(meshes[1..])
  }

  lemma {:induction false} MeshXsConcat(meshes: seq<seq<Point>>)
    ensures MeshXs(meshes) == Xs(Concat(meshes))
    decreases |meshes|
  {
    if |meshes| > 0 {
      MeshXsConcat(meshes[1..]);
      assert Xs(meshes[0] + Concat(meshes[1..])) == Xs(meshes[0]) + Xs(Concat(meshes[1..]));
    }
  }

  /** The plot3d payload: one point per row in `points`, the meshes, and three titles. */
  function Plot3dPayload(frame: Frame, columns: seq<string>): (p: map<string, Json>)
    requires |columns| >= 5 || (|columns| >= 3 && |frame.rows| == 0)
    ensures "points" in p && p["points"] == PointsJson(Points(frame, columns))
    ensures PointsOfRows(p["points"], frame, columns)
    ensures "meshes" in p && p["meshes"] == JArr(MeshesJson(Meshes(Points(frame, columns))))
    ensures |Meshes(Points(frame, columns))| == Starts(Points(frame, columns))
    ensures "xtitle" in p && p["xtitle"] == JStr(GetTitle(StrTerm(columns[0])))
    ensures "ytitle" in p && p["ytitle"] == JStr(GetTitle(StrTerm(columns[1])))
    ensures "ztitle" in p && p["ztitle"] == JStr(GetTitle(StrTerm(columns[2])))
  {
    var pts := Points(frame, columns);
    var ms := Meshes(pts);
    MeshesCount(pts);
    var points := PointsJson(pts);
    PointsJsonOfRows(frame, columns);
    map[
      "points" := points,
      "meshes" := JArr(MeshesJson(ms)),
      "xtitle" := JStr(GetTitle(StrTerm(columns[0]))),
      "ytitle" := JStr(GetTitle(StrTerm(columns[1]))),
      "ztitle" := JStr(GetTitle(StrTerm(columns[2])))
    ]
  }

  /** A `points` object built from the rows: its `x`, `y`, `z` and `labels` lists hold one
      entry per row, in row order, read from columns 0 to 3. */
  predicate PointsOfRows(points: Json, frame: Frame, columns: seq<string>)
    requires |columns| >= 5 || |frame.rows| == 0
  {
    && points.JObj? && "x" in points.members && "y" in points.members
    && "z" in points.members && "labels" in points.members
    && var xs, ys, zs, ls := points.members["x"], points.members["y"], points.members["z"], points.members["labels"];
    && xs.JArr? && ys.JArr? && zs.JArr? && ls.JArr?
    && |xs.items| == |frame.rows| && |ys.items| == |frame.rows|
    && |zs.items| == |frame.rows| && |ls.items| == |frame.rows|
    && forall i :: 0 <= i < |frame.rows| ==>
         && xs.items[i] == Cell(frame.rows[i], columns[0]) && ys.items[i] == Cell(frame.rows[i], columns[1])
         && zs.items[i] == Cell(frame.rows[i], columns[2]) && ls.items[i] == Cell(frame.rows[i], columns[3])
  }

  lemma PointsJsonOfRows(frame: Frame, columns: seq<string>)
    requires |columns| >= 5 || |frame.rows| == 0
    ensures PointsOfRows(PointsJson(Points(frame, columns)), frame, columns)
  {
  }

  /** `payload.update(kwargs)`: the keys of both, the keyword arguments winning over
      payload keys of the same name. */
  function Merge(payload: map<string, Json>, kwargs: map<string, Json>): (r: map<string, Json>)
    ensures r.Keys == payload.Keys + kwargs.Keys
    ensures forall k :: k in r ==> r[k] == if k in kwargs then kwargs[k] else payload[k]
  {
    payload + kwargs
  }

  /** The payload of a JSON export, by plot type. A bar plot reads two columns; a 3D
      plot reads three for its titles and, once there is a row, five. */
  function Payload(frame: Frame, columns: seq<string>, plottype: string): (r: Result<map<string, Json>, ExportError>)
    ensures r.Success? <==>
      || (plottype == "bar" && |columns| >= 2)
      || (plottype == "plot3d" && |columns| >= 3 && (|frame.rows| == 0 || |columns| >= 5))
    ensures r.Failure? && (plottype == "bar" || plottype == "plot3d") ==> r.error == IndexError
    ensures plottype != "bar" && plottype != "plot3d" ==> r == Failure(RuntimeError("Error: " + plottype + " is an unknown plot type"))
  {
    if plottype == "bar" then
      if |columns| < 2 then Failure(IndexError) else Success(BarPayload(frame, columns[0], columns[1]))
    else if plottype == "plot3d" then
      if |columns| < 3 || (|frame.rows| > 0 && |columns| < 5) then Failure(IndexError)
      else Success(Plot3dPayload(frame, columns))
    else Failure(RuntimeError("Error: " + plottype + " is an unknown plot type"))
  }

  /** What an export writes: CSV header and lines, or the JSON plot document. */
  datatype Exported = CsvFile(header: string, lines: seq<seq<Json>>) | JsonFile(plot: Json)

  predicate HasColumns(frame: Frame, columns: seq<string>) {
    forall i :: 0 <= i < |columns| ==> columns[i] in frame.columns
  }

  /** The JSON document of a plot: its type and its payload. */
  function PlotDocument(plottype: string, payload: map<string, Json>): Json {
    JObj(map["use_visavis_type" := JStr(plottype), "payload" := JObj(payload)])
  }

  /** The JSON branch of `save_plot`: the plot type's payload, updated with the keyword
      arguments. It fails exactly when building the payload fails, and the payload reads
      back from the document it writes. */
  function JsonPlot(frame: Frame, columns: seq<string>, plottype: string, kwargs: map<string, Json>)
    : (r: Result<Exported, ExportError>)
    ensures r.Success? <==> Payload(frame, columns, plottype).Success?
    ensures Payload(frame, columns, plottype).Failure? ==> r == Failure(Payload(frame, columns, plottype).error)
    ensures Payload(frame, columns, plottype).Success? ==>
      r.Success? && r.value.JsonFile? && PayloadOf(r.value) == Merge(Payload(frame, columns, plottype).value, kwargs)
  {
    var payload :- Payload(frame, columns, plottype);
    var merged := Merge(payload, kwargs);
    DocumentPayload(plottype, merged);
    Success(JsonFile(PlotDocument(plottype, merged)))
  }

  /** `save_plot(data, columns, plottype, fmt, **kwargs)`. The checks come in order: the
      data type, then the columns, then the format, then the plot type for JSON or, for
      CSV, the selection of the columns, which refuses a column named twice. */
  function SavePlot(data: Data, columns: seq<string>, plottype: string, fmt: string, kwargs: map<string, Json>)
    : (r: Result<Exported, ExportError>)
    ensures data.NotAFrame? ==> r == Failure(TypeError(NotAFrameMessage))
    ensures data.DataFrame? && !HasColumns(data.frame, columns) ==> r == Failure(ValueError(MissingColumnsMessage))
    ensures data.DataFrame? && HasColumns(data.frame, columns) && fmt != "csv" && fmt != "json" ==>
      r == Failure(ValueError("Unsupported format: " + fmt))
    ensures data.DataFrame? && HasColumns(data.frame, columns) && fmt == "json" && plottype != "bar" && plottype != "plot3d" ==>
      r == Failure(RuntimeError("Error: " + plottype + " is an unknown plot type"))
    ensures data.DataFrame? && HasColumns(data.frame, columns) && fmt == "csv" && !NoDuplicates(columns) ==>
      r == Failure(DuplicateError)
    ensures r.Success? <==>
      data.DataFrame? && HasColumns(data.frame, columns)
      && ((fmt == "csv" && NoDuplicates(columns))
          || (fmt == "json" && ((plottype == "bar" && |columns| >= 2)
                                || (plottype == "plot3d" && |columns| >= 3 && (|data.frame.rows| == 0 || |columns| >= 5)))))
  {
    match data
    case NotAFrame => Failure(TypeError(NotAFrameMessage))
    case DataFrame(frame) =>
      if !HasColumns(frame, columns) then Failure(ValueError(MissingColumnsMessage))
      else if fmt == "csv" then
        if NoDuplicates(columns) then Success(CsvFile(Join(columns, ','), Select(frame, columns)))
        else Failure(DuplicateError)
      else if fmt == "json" then JsonPlot(frame, columns, plottype, kwargs)
      else Failure(ValueError("Unsupported format: " + fmt))
  }

  /** The payload of a successful JSON export, read back from the plot document. */
  function PayloadOf(e: Exported): map<string, Json> {
    match e
    case JsonFile(JObj(plot)) =>
      if "payload" in plot && plot["payload"].JObj? then plot["payload"].members else map[]
    case _ => map[]
  }

  /** A CSV export of distinct columns writes a header that splits back into the column
      names (when none of them holds a comma) and, per row in order, the cells of those
      columns in order; the plot type and keyword arguments play no part. */
  lemma CsvExport(frame: Frame, columns: seq<string>, plottype: string, kwargs: map<string, Json>)
    requires HasColumns(frame, columns) && NoDuplicates(columns)
    ensures var r := SavePlot(DataFrame(frame), columns, plottype, "csv", kwargs);
      && r.Success? && r.value.CsvFile?
      && (|columns| > 0 && (forall i :: 0 <= i < |columns| ==> ',' !in columns[i]) ==> Split(r.value.header, ',') == columns)
      && |r.value.lines| == |frame.rows|
      && (forall i :: 0 <= i < |frame.rows| ==> |r.value.lines[i]| == |columns|)
      && (forall i, j :: 0 <= i < |frame.rows| && 0 <= j < |columns| ==>
            r.value.lines[i][j] == Cell(frame.rows[i], columns[j]))
  {
    if |columns| > 0 && (forall i :: 0 <= i < |columns| ==> ',' !in columns[i]) {
      SplitJoin(columns, ',');
    }
  }

  /** A JSON export that gets past validation carries the plot type's payload merged
      with the keyword arguments. */
  lemma JsonExport(frame: Frame, columns: seq<string>, plottype: string, kwargs: map<string, Json>)
    requires HasColumns(frame, columns) && Payload(frame, columns, plottype).Success?
    ensures var r := SavePlot(DataFrame(frame), columns, plottype, "json", kwargs);
      r.Success? && PayloadOf(r.value) == Merge(Payload(frame, columns, plottype).value, kwargs)
  {
    assert SavePlot(DataFrame(frame), columns, plottype, "json", kwargs) == JsonPlot(frame, columns, plottype, kwargs);
  }

  /** A bar export: `x` holds one list with the first column's values in row order, `y`
      the second column's, the titles are those of the two names, and any keyword
      argument overrides them. */
  lemma BarExport(frame: Frame, columns: seq<string>, kwargs: map<string, Json>)
    requires HasColumns(frame, columns) && |columns| >= 2
    ensures var r := SavePlot(DataFrame(frame), columns, "bar", "json", kwargs);
      && r.Success?
      && var p := PayloadOf(r.value);
      && p.Keys == {"x", "y", "xtitle", "ytitle"} + kwargs.Keys
      && (forall k :: k in kwargs ==> p[k] == kwargs[k])
      && ("x" !in kwargs ==> p["x"] == JArr([JArr(Column(frame, columns[0]))]))
      && ("y" !in kwargs ==> p["y"] == JArr(Column(frame, columns[1])))
      && ("xtitle" !in kwargs ==> p["xtitle"] == JStr(GetTitle(StrTerm(columns[0]))))
      && ("ytitle" !in kwargs ==> p["ytitle"] == JStr(GetTitle(StrTerm(columns[1]))))
  {
    assert Payload(frame, columns, "bar") == Success(BarPayload(frame, columns[0], columns[1]));
  }

  /** The payload reads back from the plot document. */
  lemma DocumentPayload(plottype: string, payload: map<string, Json>)
    ensures PayloadOf(JsonFile(PlotDocument(plottype, payload))) == payload
  {
    var m := map["use_visavis_type" := JStr(plottype), "payload" := JObj(payload)];
    assert "payload" in m && m["payload"] == JObj(payload);
  }

  /** Read back from the written mesh objects, the `x` lists are the meshes' x values. */
  lemma {:induction false} JsonXsMeshes(meshes: seq<seq<Point>>)
    ensures JsonXs(MeshesJson(meshes)) == MeshXs(meshes)
    decreases |meshes|
  {
    if |meshes| > 0 {
      JsonXsMeshes(meshes[1..]);
      assert MeshesJson(meshes)[1..] == MeshesJson(meshes[1..]);
    }
  }

  /** A plot3d export with a mesh id on every row, as `save_plot` writes it. The `points`
      lists hold one entry per row in row order, there is one mesh object per change of
      id, and the meshes' `x` lists, mesh after mesh, give back the `x` list of `points`.
      The titles are those of the first three names. A keyword argument overrides the
      key of its name. */
  lemma Plot3dExport(frame: Frame, columns: seq<string>, kwargs: map<string, Json>)
    requires HasColumns(frame, columns) && |columns| >= 5
    requires forall i :: 0 <= i < |frame.rows| ==> Cell(frame.rows[i], columns[4]) != JNull
    ensures var pts := Points(frame, columns);
      && MeshXs(Meshes(pts)) == Xs(pts)
      && |Meshes(pts)| == Starts(pts)
    ensures var r := SavePlot(DataFrame(frame), columns, "plot3d", "json", kwargs);
      && r.Success?
      && var p := PayloadOf(r.value);
      && (forall k :: k in kwargs ==> k in p && p[k] == kwargs[k])
      && ("points" !in kwargs ==> "points" in p && PointsOfRows(p["points"], frame, columns))
      && ("meshes" !in kwargs ==>
            "meshes" in p && p["meshes"].JArr? && |p["meshes"].items| == Starts(Points(frame, columns)))
      && ("points" !in kwargs && "meshes" !in kwargs ==>
            JsonXs(p["meshes"].items) == p["points"].members["x"].items)
      && ("xtitle" !in kwargs ==> "xtitle" in p && p["xtitle"] == JStr(GetTitle(StrTerm(columns[0]))))
      && ("ytitle" !in kwargs ==> "ytitle" in p && p["ytitle"] == JStr(GetTitle(StrTerm(columns[1]))))
      && ("ztitle" !in kwargs ==> "ztitle" in p && p["ztitle"] == JStr(GetTitle(StrTerm(columns[2]))))
  {
    var pts := Points(frame, columns);
    MeshesCoverAll(pts);
    MeshXsConcat(Meshes(pts));
    Plot3dMeshesCover(frame, columns);
    var payload := Plot3dPayload(frame, columns);
    assert Payload(frame, columns, "plot3d") == Success(payload);
    JsonExport(frame, columns, "plot3d", kwargs);
  }

  /** With a mesh id on every row, the written meshes' `x` lists, mesh after mesh, are
      the `x` list of `points`. */
  lemma Plot3dMeshesCover(frame: Frame, columns: seq<string>)
    requires |columns| >= 5
    requires forall i :: 0 <= i < |frame.rows| ==> Cell(frame.rows[i], columns[4]) != JNull
    ensures var p := Plot3dPayload(frame, columns);
      JsonXs(p["meshes"].items) == p["points"].members["x"].items
  {
    var pts := Points(frame, columns);
    MeshesCoverAll(pts);
    MeshXsConcat(Meshes(pts));
    JsonXsMeshes(Meshes(pts));
  }


}

=== FILE: fetch.dfy ===
/** One request to the database and the classification of its response
    (`_request` in mpds_client/retrieve_MPDS.py). The transport, URL encoding and
    JSON decoding are not part of this model: a response arrives already decoded,
    or marked undecodable. */
module Fetch {
  import opened Results
  import opened Decimal
  import opened Text
  import opened Errors
  import opened Projection

  /** The default number of records per page. */
  const PageSize: nat := 1000

  /** One request: the encoded query, the phase ids, the 0-based page index and the
      page size. `Parameters` gives the form in which it is sent. */
  datatype Request = Request(query: string, phases: seq<int>, page: nat, pageSize: nat)

  /** A decoded response body. `error` is the embedded error field, empty when falsy. */
  datatype Body = Body(error: string, out: seq<Record>, count: int, npages: int)

  /** A raw response: the HTTP status and the body, `None` when it could not be decoded. */
  datatype Response = Response(status: int, body: Option<Body>)

  /** The database, as seen by the client: a response for every request. */
  type Server = Request -> Response

  /** What `_request` hands back: an error dictionary or a page of records. */
  datatype Reply =
    | Failed(error: string, code: Option<int>)
    | Page(out: seq<Record>, count: int, npages: int)

  const NoHits: string := "No hits"
  const Unreadable: string := "Unreadable data obtained"

  /** Phase ids as sent: comma-joined decimal integers, or empty. */
  function SerializePhases(phases: seq<int>): (s: string)
    ensures |phases| == 0 <==> s == ""
  {
    if |phases| > 0 then Join(Numerals(phases), ',') else ""
  }

  function Numerals(phases: seq<int>): (parts: seq<string>)
    ensures |parts| == |phases|
    ensures forall i :: 0 <= i < |phases| ==> parts[i] == IntToString(phases[i])
    decreases |phases|
  {
    if |phases| == 0 then [] else [IntToString(phases[0])] + Numerals(phases[1..])
  }

  function ParseAll(parts: seq<string>): (ns: seq<int>)
    ensures |ns| == |parts|
    ensures forall i :: 0 <= i < |parts| ==> ns[i] == ParseInt(parts[i])
    decreases |parts|
  {
    if |parts| == 0 then [] else [ParseInt(parts[0])] + ParseAll(parts[1..])
  }

  /** How the receiving side reads the phase parameter back. */
  function ParsePhases(s: string): seq<int> {
    if s == "" then [] else ParseAll(Split(s, ','))
  }

  /** The phase parameter carries exactly the ids, in order. */
  lemma SerializePhasesRoundTrip(phases: seq<int>)
    ensures ParsePhases(SerializePhases(phases)) == phases
  {
    if |phases| > 0 {
      var parts := Numerals(phases);
      forall i | 0 <= i < |parts| ensures ',' !in parts[i] {
        assert IsNumeral(parts[i]);
        forall j | 0 <= j < |parts[i]| ensures parts[i][j] != ',' {
          assert IsDigit(parts[i][j]) || parts[i][j] == '-';
        }
      }
      SplitJoin(parts, ',');
      forall i | 0 <= i < |phases| ensures ParseInt(parts[i]) == phases[i] {
        ParseIntToString(phases[i]);
      }
    }
  }

  /** The request `_request` issues; a missing or zero page size means the default. */
  function MakeRequest(query: string, phases: seq<int>, page: nat, pageSize: Option<nat>): (rq: Request)
    ensures rq.query == query && rq.phases == phases && rq.page == page
    ensures pageSize.Some? && pageSize.value > 0 ==> rq.pageSize == pageSize.value
    ensures pageSize.None? || pageSize.value == 0 ==> rq.pageSize == PageSize
  {
    var size := if pageSize.Some? && pageSize.value != 0 then pageSize.value else PageSize;
    Request(query, phases, page, size)
  }

  /** The query-string parameters a request is sent with. */
  function Parameters(rq: Request): map<string, string> {
    map["q" := rq.query, "phases" := SerializePhases(rq.phases),
        "page" := IntToString(rq.page), "pagesize" := IntToString(rq.pageSize)]
  }

  /** Distinct requests are sent with distinct parameters, so a server that answers
      the parameters it receives is a function of the request. */
  lemma ParametersInjective(a: Request, b: Request)
    requires Parameters(a) == Parameters(b)
    ensures a == b
  {
    assert Parameters(a)["phases"] == Parameters(b)["phases"];
    SerializePhasesRoundTrip(a.phases);
    SerializePhasesRoundTrip(b.phases);
    assert Parameters(a)["page"] == Parameters(b)["page"];
    IntToStringInjective(a.page, b.page);
    assert Parameters(a)["pagesize"] == Parameters(b)["pagesize"];
    IntToStringInjective(a.pageSize, b.pageSize);
    assert Parameters(a)["q"] == Parameters(b)["q"];
  }

  /** A body is a usable page when it carries no error and some records. */
  predicate Usable(b: Body) {
    b.error == "" && |b.out| > 0
  }

  /** Sorts a response: HTTP failure, undecodable body, embedded error, no hits, or a
      page. A response is a page exactly when the status is 200 and the body decodes
      to a usable page; otherwise the failure says which check refused it, with the
      HTTP status as the code of an HTTP failure and 1 for an empty result. */
  function Classify(resp: Response): (r: Reply)
    ensures r.Page? <==> resp.status == 200 && resp.body.Some? && Usable(resp.body.value)
    ensures r.Page? ==> r == Page(resp.body.value.out, resp.body.value.count, resp.body.value.npages)
    ensures resp.status != 200 ==> r.Failed? && r.code == Some(resp.status)
    ensures resp.status == 200 && resp.body.None? ==> r == Failed(Unreadable, None)
    ensures resp.status == 200 && resp.body.Some? && resp.body.value.error != "" ==> r == Failed(resp.body.value.error, None)
    ensures resp.status == 200 && resp.body.Some? && resp.body.value.error == "" && |resp.body.value.out| == 0 ==>
      r == Failed(NoHits, Some(1))
  {
    if resp.status != 200 then Failed("HTTP error code " + IntToString(resp.status), Some(resp.status))
    else match resp.body
      case None => Failed(Unreadable, None)
      case Some(b) =>
        if b.error != "" then Failed(b.error, None)
        else if |b.out| == 0 then Failed(NoHits, Some(1))
        else Page(b.out, b.count, b.npages)
  }

  /** `APIError(result['error'], result.get('code', 0))`. */
  function Raise(reply: Reply): (e: ApiError)
    requires reply.Failed?
    ensures e.msg == reply.error
    ensures reply.code.None? ==> e.code == 0
    ensures reply.code.Some? ==> e.code == reply.code.value
  {
    ApiError(reply.error, reply.code.GetOr(0))
  }
}

=== FILE: json.dfy ===
/** The JSON values exchanged with the remote database and written to plot files. */
module Json {

  /** A decoded JSON value. Numbers are abstracted to integers: no operation of the
      model inspects a fractional value, it only copies values around. */
  datatype Json =
    | JNull
    | JBool(b: bool)
    | JNum(n: int)
    | JStr(s: string)
    | JArr(items: seq<Json>)
    | JObj(members: map<string, Json>)

  /** Python truthiness of a decoded JSON value. */
  predicate Truthy(j: Json) {
    match j
    case JNull => false
    case JBool(b) => b
    case JNum(n) => n != 0
    case JStr(s) => |s| > 0
    case JArr(items) => |items| > 0
    case JObj(members) => |members| > 0
  }
}

=== FILE: projection.dfy ===
/** Field compilation and the projection of heterogeneous records into rows
    (`get_data`'s field compilation and `_massage` in mpds_client/retrieve_MPDS.py). */
module Projection {
  import opened Results
  import opened Json
  import opened Errors

  /** One record returned by the server; `objectType` is its `object_type` tag. */
  datatype Record = Record(objectType: string, doc: Json)

  /** A caller's field entry: a path expression, or a zero-argument callable. */
  datatype FieldSpec = PathSpec(path: string) | Thunk(make: () -> Json)

  /** A compiled field entry: a path to evaluate, or a constant computed once. */
  datatype Selector = Path(expr: string) | Constant(value: Json)

  /** Path evaluation against a record (the path library is not part of this model). */
  type Search = (string, Record) -> Json

  /** One item of the output: the record itself when projection is off, otherwise a row. */
  datatype Entry = Raw(record: Record) | Row(cells: seq<Json>)

  /** The record kinds `_massage` knows, in the order it tries them. */
  const Kinds: seq<string> := ["S", "P", "C"]

  const UnknownType: ApiError := ApiError("API error: unknown data type")

  /** A selector reproduces its field entry: a path stays that path, a callable is
      replaced by the value it returns. */
  predicate CompiledFrom(sel: Selector, spec: FieldSpec) {
    match spec
    case PathSpec(p) => sel == Path(p)
    case Thunk(make) => sel == Constant(make())
  }

  function CompileEntries(specs: seq<FieldSpec>): (sels: seq<Selector>)
    ensures |sels| == |specs|
    ensures forall i :: 0 <= i < |specs| ==> CompiledFrom(sels[i], specs[i])
    decreases |specs|
  {
    if |specs| == 0 then []
    else
      var head := match specs[0]
        case PathSpec(p) => Path(p)
        case Thunk(make) => Constant(make());
      [head] + CompileEntries(specs[1..])
  }

  /** Compiles a field specification; an empty one switches projection off. */
  function Compile(fields: map<string, seq<FieldSpec>>): (c: Option<map<string, seq<Selector>>>)
    ensures c.None? <==> |fields| == 0
    ensures c.Some? ==> c.value.Keys == fields.Keys
    ensures c.Some? ==> forall k :: k in fields ==>
      |c.value[k]| == |fields[k]| && forall i :: 0 <= i < |fields[k]| ==> CompiledFrom(c.value[k][i], fields[k][i])
  {
    if |fields| == 0 then None
    else Some(map k | k in fields :: CompileEntries(fields[k]))
  }

  /** `fields.get(kind, [])`. */
  function SelectorsFor(compiled: map<string, seq<Selector>>, kind: string): seq<Selector> {
    if kind in compiled then compiled[kind] else []
  }

  function Evaluate(sel: Selector, rec: Record, search: Search): Json {
    match sel
    case Path(expr) => search(expr, rec)
    case Constant(v) => v
  }

  function EvaluateAll(sels: seq<Selector>, rec: Record, search: Search): (cells: seq<Json>)
    ensures |cells| == |sels|
    ensures forall i :: 0 <= i < |sels| ==> cells[i] == Evaluate(sels[i], rec, search)
    decreases |sels|
  {
    if |sels| == 0 then [] else [Evaluate(sels[0], rec, search)] + EvaluateAll(sels[1..], rec, search)
  }

  /** The row of one record: one cell per selector of its kind, constants verbatim and
      paths evaluated against the record; a record of no known kind is an error. */
  function Project(rec: Record, compiled: map<string, seq<Selector>>, search: Search): (r: Result<seq<Json>, ApiError>)
    ensures r.Success? <==> rec.objectType in Kinds
    ensures r.Failure? ==> r.error == UnknownType
    ensures r.Success? ==> |r.value| == |SelectorsFor(compiled, rec.objectType)|
    ensures r.Success? ==> forall i :: 0 <= i < |r.value| ==>
      match SelectorsFor(compiled, rec.objectType)[i]
      case Constant(v) => r.value[i] == v
      case Path(p) => r.value[i] == search(p, rec)
  {
    if rec.objectType in Kinds then Success(EvaluateAll(SelectorsFor(compiled, rec.objectType), rec, search))
    else Failure(UnknownType)
  }

  /** Projection is off when no specification was given or it was empty. */
  predicate Disabled(fields: Option<map<string, seq<Selector>>>) {
    fields.None? || |fields.value| == 0
  }

  /** `_massage`: the records unchanged when projection is off, else one row per record
      in order; the first record of unknown kind fails the whole page. */
  function Massage(records: seq<Record>, fields: Option<map<string, seq<Selector>>>, search: Search): (r: Result<seq<Entry>, ApiError>)
    ensures r.Failure? ==> !Disabled(fields) && r.error == UnknownType
    ensures r.Success? ==> |r.value| == |records|
    decreases |records|
  {
    if |records| == 0 then Success([])
    else
      var head := if Disabled(fields) then Success(Raw(records[0]))
                  else match Project(records[0], fields.value, search)
                    case Success(cells) => Success(Row(cells))
                    case Failure(e) => Failure(e);
      match head
      case Failure(e) => Failure(e)
      case Success(entry) =>
        match Massage(records[1..], fields, search)
        case Failure(e) => Failure(e)
        case Success(rest) => Success([entry] + rest)
  }

  /** `_massage` never fails with projection off and then hands the records over
      unchanged; with projection on it succeeds exactly when every record is of a known
      kind, and then yields each record's row in order. */
  lemma {:induction false} MassageOutcome(records: seq<Record>, fields: Option<map<string, seq<Selector>>>, search: Search)
    ensures var r := Massage(records, fields, search);
      && (Disabled(fields) ==> r.Success?)
      && (!Disabled(fields) ==> (r.Success? <==> forall i :: 0 <= i < |records| ==> records[i].objectType in Kinds))
      && (r.Failure? ==> r.error == UnknownType)
      && (r.Success? ==> |r.value| == |records|)
      && (r.Success? && Disabled(fields) ==> forall i :: 0 <= i < |records| ==> r.value[i] == Raw(records[i]))
      && (r.Success? && !Disabled(fields) ==> forall i :: 0 <= i < |records| ==>
            Project(records[i], fields.value, search).Success? && r.value[i] == Row(Project(records[i], fields.value, search).value))
    decreases |records|
  {
    if |records| > 0 {
      var rest := records[1..];
      MassageOutcome(rest, fields, search);
      assert forall i :: 1 <= i < |records| ==> records[i] == rest[i - 1];
    }
  }
}

=== FILE: results.dfy ===
/** Failure-compatible wrappers shared by every module of the model. */
module Results {

  /** An optional value: Python's `None` or a present value. */
  datatype Option<+T> = None | Some(value: T) {

    /** The value, or `default` when absent (Python's `d.get(key, default)`). */
    function GetOr(default: T): T {
      match this
      case Some(v) => v
      case None => default
    }
  }

  /** The outcome of an operation that either returns or raises. */
  datatype Result<+T, +E> = Success(value: T) | Failure(error: E) {

    predicate IsFailure() {
      Failure?
    }

    function PropagateFailure<U>(): Result<U, E>
      requires Failure?
    {
      Failure(error)
    }

    function Extract(): T
      requires Success?
    {
      value
    }
  }
}

=== FILE: retrieval.dfy ===
/** The retrieval protocol: the per-batch page loop, the cross-batch totals check and
    the count-only request (`get_data` and `count_data` in mpds_client/retrieve_MPDS.py). */
module Retrieval {
  import opened Results
  import opened Json
  import opened Decimal
  import opened Errors
  import opened Projection
  import opened Seqs
  import opened Batching
  import opened Fetch

  /** The ceiling on pages per batch. */
  const MaxPages: nat := 100

  /** The page size of a count-only request. */
  const CountPageSize: nat := 10

  const Drift: ApiError := ApiError("API error: hits count has been changed during the query")
  const CountsDiffer: ApiError := ApiError("API error: collected and declared counts of hits differ")

  /** The largest number of hits one batch can deliver, as the ceiling message prints it. */
  const MaxHitsText: string := IntToString(MaxPages * PageSize)

  /** The ceiling message quotes 100000 hits. */
  lemma MaxHitsTextIsCeiling()
    ensures MaxHitsText == "100000"
  {
    assert NatToString(10) == "10";
    assert NatToString(100) == "100";
    assert NatToString(1000) == "1000";
    assert NatToString(10000) == "10000";
    assert NatToString(100000) == "100000";
  }

  /** The error raised when a batch declares more pages than the ceiling; its message
      quotes the declared hit count and the largest retrievable one. */
  function TooManyHits(count: int): (e: ApiError)
    ensures e.code == 1
  {
    ApiError("Too many hits (" + IntToString(count) + " > " + MaxHitsText + "), please, be more specific", 1)
  }

  /** Everything fixed during one retrieval: the server, the encoded query and the
      treatment of each page's records, which `ContextOf` fixes to `_massage` with the
      compiled fields. */
  datatype Context = Context(server: Server, query: string, treat: seq<Record> -> Result<seq<Entry>, ApiError>)

  /** Page `k` of a batch is requested: the loop accepted pages 0 to `k - 1` and none of
      them declared itself the last. */
  ghost predicate Reached(ctx: Context, batch: seq<int>, k: nat) {
    forall j :: 0 <= j < k ==> Accepted(ctx, batch, j, HitsBefore(ctx, batch, j)) && !IsLast(ctx, batch, j)
  }

  /** Every page of the batch that the loop requests and accepts declares more pages than
      its own index. Without this the page loop need not end: once the index reaches the
      declared count the stopping test `counter == npages - 1` fails, and it keeps failing
      for as long as later pages are accepted and declare no more pages than their index. */
  ghost predicate KeepsPageRange(ctx: Context, batch: seq<int>) {
    forall k: nat {:trigger Reached(ctx, batch, k)} ::
      k < MaxPages && Reached(ctx, batch, k) && Accepted(ctx, batch, k, HitsBefore(ctx, batch, k)) ==>
        k < PageReply(ctx, batch, k).npages
  }

  /** `KeepsPageRange` for every batch the retrieval requests: the first one, and each
      later one as long as the batches before it succeeded. A failing batch ends the
      retrieval, and nothing is assumed of the batches after it. */
  ghost predicate KeepsPageRanges(ctx: Context, batches: seq<seq<int>>)
    decreases |batches|
  {
    |batches| > 0 ==>
      && KeepsPageRange(ctx, batches[0])
      && (Batch(ctx, batches[0]).Success? ==> KeepsPageRanges(ctx, batches[1..]))
  }

  /** The batch keeps the page range and completes. */
  ghost predicate Completes(ctx: Context, batch: seq<int>) {
    KeepsPageRange(ctx, batch) && Batch(ctx, batch).Success?
  }

  /** The assumption stops at the first failing batch: when the batches before batch
      `i` keep the page range and succeed, and batch `i` keeps it and fails, the
      assumption holds whatever the batches after `i` would do. */
  lemma {:induction false} RangesStopAtFailure(ctx: Context, batches: seq<seq<int>>, i: nat)
    requires i < |batches|
    requires forall j :: 0 <= j < i ==> Completes(ctx, batches[j])
    requires KeepsPageRange(ctx, batches[i]) && Batch(ctx, batches[i]).Failure?
    ensures KeepsPageRanges(ctx, batches)
    decreases i
  {
    if i > 0 {
      var tail := batches[1..];
      forall j | 0 <= j < i - 1 ensures Completes(ctx, tail[j]) {
        assert tail[j] == batches[j + 1];
      }
      assert tail[i - 1] == batches[i];
      RangesStopAtFailure(ctx, tail, i - 1);
      assert Completes(ctx, batches[0]);
    }
  }

  /** A server that answers every request, whatever its page, with one page of one
      record declaring a single page keeps the page range: the loop stops after page 0
      and never asks for page 1. */
  lemma SinglePageServer(search: Search, query: string, fields: map<string, seq<FieldSpec>>, batch: seq<int>, rec: Record)
    ensures KeepsPageRange(ContextOf((rq: Request) => Response(200, Some(Body("", [rec], 1, 1))), search, query, fields), batch)
  {
    var ctx := ContextOf((rq: Request) => Response(200, Some(Body("", [rec], 1, 1))), search, query, fields);
    assert PageReply(ctx, batch, 0) == Page([rec], 1, 1);
    assert IsLast(ctx, batch, 0);
  }

  /** An accepted page that is not the last is followed by a request for the next page,
      still within the ceiling, with the hit count the accepted page declared. */
  lemma ReachNext(ctx: Context, batch: seq<int>, k: nat)
    requires KeepsPageRange(ctx, batch) && k < MaxPages && Reached(ctx, batch, k)
    requires Accepted(ctx, batch, k, HitsBefore(ctx, batch, k)) && !IsLast(ctx, batch, k)
    ensures k + 1 < MaxPages && Reached(ctx, batch, k + 1)
    ensures HitsBefore(ctx, batch, k + 1) == PageReply(ctx, batch, k).count
  {
  }

  /** The reply to page `k` of a batch. */
  function PageReply(ctx: Context, batch: seq<int>, k: nat): Reply {
    Classify(ctx.server(MakeRequest(ctx.query, batch, k, None)))
  }

  /** The rows of one batch and the hit count last declared for it. */
  datatype BatchOut = BatchOut(rows: seq<Entry>, hits: int)

  /** Puts `rows` in front of the rows of a batch outcome; errors pass through. */
  function Prepend(rows: seq<Entry>, r: Result<BatchOut, ApiError>): Result<BatchOut, ApiError> {
    match r
    case Success(out) => Success(BatchOut(rows + out.rows, out.hits))
    case Failure(e) => Failure(e)
  }

  /** The page loop of one batch, from page `counter` with `hits` the count observed so
      far. Once a non-zero hit count has been seen it can no longer change: a walk that
      succeeds reports it. */
  function RunBatch(ctx: Context, batch: seq<int>, counter: nat, hits: int): (r: Result<BatchOut, ApiError>)
    requires KeepsPageRange(ctx, batch)
    requires counter < MaxPages && Reached(ctx, batch, counter) && hits == HitsBefore(ctx, batch, counter)
    ensures r.Success? && hits != 0 ==> r.value.hits == hits
    decreases MaxPages - counter
  {
    var reply := PageReply(ctx, batch, counter);
    if reply.Failed? then Failure(Raise(reply))
    else if reply.npages > MaxPages then Failure(TooManyHits(reply.count))
    else match ctx.treat(reply.out)
      case Failure(e) => Failure(e)
      case Success(rows) =>
        if hits != 0 && hits != reply.count then Failure(Drift)
        else if counter == reply.npages - 1 then Success(BatchOut(rows, reply.count))
        else
          ReachNext(ctx, batch, counter);
          Prepend(rows, RunBatch(ctx, batch, counter + 1, reply.count))
  }

  /** The outcome of one batch run from its start. */
  function Batch(ctx: Context, batch: seq<int>): Result<BatchOut, ApiError>
    requires KeepsPageRange(ctx, batch)
  {
    RunBatch(ctx, batch, 0, 0)
  }

  /** The rows of every batch and the sum of their declared hit counts. */
  datatype Collected = Collected(rows: seq<Entry>, total: int)

  /** Puts what earlier batches collected in front of the outcome of the remaining ones. */
  function Absorb(rows: seq<Entry>, total: int, r: Result<Collected, ApiError>): Result<Collected, ApiError> {
    match r
    case Success(c) => Success(Collected(rows + c.rows, total + c.total))
    case Failure(e) => Failure(e)
  }

  /** Combines the outcomes of the batches, in order: the first failure aborts. */
  function Gather(outcomes: seq<Result<BatchOut, ApiError>>): Result<Collected, ApiError>
    decreases |outcomes|
  {
    if |outcomes| == 0 then Success(Collected([], 0))
    else match outcomes[0]
      case Failure(e) => Failure(e)
      case Success(first) => Absorb(first.rows, first.hits, Gather(outcomes[1..]))
  }

  predicate AllSucceed(outcomes: seq<Result<BatchOut, ApiError>>) {
    forall i :: 0 <= i < |outcomes| ==> outcomes[i].Success?
  }

  function RowsOf(outcomes: seq<Result<BatchOut, ApiError>>): (rows: seq<seq<Entry>>)
    requires AllSucceed(outcomes)
    ensures |rows| == |outcomes|
    ensures forall i :: 0 <= i < |outcomes| ==> rows[i] == outcomes[i].value.rows
    decreases |outcomes|
  {
    if |outcomes| == 0 then [] else [outcomes[0].value.rows] + RowsOf(outcomes[1..])
  }

  function HitsOf(outcomes: seq<Result<BatchOut, ApiError>>): int
    requires AllSucceed(outcomes)
    decreases |outcomes|
  {
    if |outcomes| == 0 then 0 else outcomes[0].value.hits + HitsOf(outcomes[1..])
  }

  /** Batches succeed together or the first failing one decides the error; on success
      the rows are concatenated batch after batch and the last observed hit count of
      each batch is summed. */
  lemma {:induction false} GatherOutcome(outcomes: seq<Result<BatchOut, ApiError>>)
    ensures Gather(outcomes).Success? <==> AllSucceed(outcomes)
    ensures Gather(outcomes).Success? ==> Gather(outcomes).value == Collected(Concat(RowsOf(outcomes)), HitsOf(outcomes))
    ensures Gather(outcomes).Failure? ==> exists i :: (0 <= i < |outcomes|
      && outcomes[i] == Failure(Gather(outcomes).error)
      && forall j :: 0 <= j < i ==> outcomes[j].Success?)
    decreases |outcomes|
  {
    if |outcomes| > 0 {
      var rest := outcomes[1..];
      GatherOutcome(rest);
      assert forall i :: 1 <= i < |outcomes| ==> outcomes[i] == rest[i - 1];
      var r := Gather(outcomes);
      if outcomes[0].Success? && Gather(rest).Failure? {
        var i :| 0 <= i < |rest| && rest[i] == Failure(r.error) && forall j :: 0 <= j < i ==> rest[j].Success?;
        assert outcomes[i + 1] == Failure(r.error);
      }
      if outcomes[0].Failure? {
        assert outcomes[0] == Failure(r.error);
      }
    }
  }

  /** The context `get_data` builds from its arguments: the fields are compiled once. */
  function ContextOf(server: Server, search: Search, query: string, fields: map<string, seq<FieldSpec>>): Context {
    var compiled := Compile(fields);
    Context(server, query, records => Massage(records, compiled, search))
  }

  /** The batches `get_data` walks: the deduplicated ids, split at the default ceiling. */
  function PhaseBatches(phases: seq<int>): seq<seq<int>> {
    Batches(Dedup(phases), MaxPhases)
  }

  /** The outcomes of the batches the retrieval requests, in order: batch after batch
      up to and including the first failing one, after which no batch is requested. */
  function Outcomes(ctx: Context, batches: seq<seq<int>>): (outcomes: seq<Result<BatchOut, ApiError>>)
    requires KeepsPageRanges(ctx, batches)
    ensures OutcomesOf(ctx, batches, outcomes)
    decreases |batches|
  {
    if |batches| == 0 then []
    else
      var first := Batch(ctx, batches[0]);
      if first.Failure? then
        assert BatchOutcome(ctx, batches[0], [first][0]);
        [first]
      else
        var rest := Outcomes(ctx, batches[1..]);
        OutcomesCons(ctx, batches, first, rest);
        [first] + rest
  }

  /** `outcome` is what the batch gives when it is walked. */
  ghost predicate BatchOutcome(ctx: Context, batch: seq<int>, outcome: Result<BatchOut, ApiError>) {
    KeepsPageRange(ctx, batch) && outcome == Batch(ctx, batch)
  }

  lemma OutcomesCons(ctx: Context, batches: seq<seq<int>>, first: Result<BatchOut, ApiError>,
                     rest: seq<Result<BatchOut, ApiError>>)
    requires |batches| > 0 && BatchOutcome(ctx, batches[0], first) && first.Success?
    requires OutcomesOf(ctx, batches[1..], rest)
    ensures OutcomesOf(ctx, batches, [first] + rest)
  {
    var all := [first] + rest;
    forall i | 0 <= i < |all| ensures BatchOutcome(ctx, batches[i], all[i]) {
      if i > 0 {
        assert all[i] == rest[i - 1] && batches[i] == batches[1..][i - 1];
      }
    }
    forall i | 0 <= i < |all| - 1 ensures all[i].Success? {
      if i > 0 {
        assert all[i] == rest[i - 1];
      }
    }
  }

  /** `outcomes` holds the outcomes of the requested batches, in order: every batch
      when all of them succeed, otherwise the batches up to the first failing one. */
  ghost predicate OutcomesOf(ctx: Context, batches: seq<seq<int>>, outcomes: seq<Result<BatchOut, ApiError>>) {
    && |outcomes| <= |batches|
    && (forall i {:trigger BatchOutcome(ctx, batches[i], outcomes[i])} :: 0 <= i < |outcomes| ==> BatchOutcome(ctx, batches[i], outcomes[i]))
    && (forall i :: 0 <= i < |outcomes| - 1 ==> outcomes[i].Success?)
    && (|outcomes| < |batches| ==> |outcomes| > 0 && outcomes[|outcomes| - 1].Failure?)
  }

  /** `get_data`: every batch in turn, then the check that as many rows were collected
      as the batches declared. */
  function GetData(server: Server, search: Search, query: string, phases: seq<int>, fields: map<string, seq<FieldSpec>>)
    : (r: Result<seq<Entry>, ApiError>)
    requires KeepsPageRanges(ContextOf(server, search, query, fields), PhaseBatches(phases))
    ensures var outcomes := Outcomes(ContextOf(server, search, query, fields), PhaseBatches(phases));
      r.Success? ==> AllSucceed(outcomes) && r.value == Concat(RowsOf(outcomes)) && |r.value| == HitsOf(outcomes)
    ensures r.Success? ==> |Outcomes(ContextOf(server, search, query, fields), PhaseBatches(phases))| == |PhaseBatches(phases)|
  {
    var outcomes := Outcomes(ContextOf(server, search, query, fields), PhaseBatches(phases));
    GatherOutcome(outcomes);
    Finish(Gather(outcomes))
  }

  /** `get_data` succeeds exactly when every batch completes and the rows collected
      number as many as the batches declared; the rows come batch after batch, and a
      failure is the error of the first failing batch or the final count mismatch. */
  lemma GetDataOutcome(server: Server, search: Search, query: string, phases: seq<int>, fields: map<string, seq<FieldSpec>>)
    requires KeepsPageRanges(ContextOf(server, search, query, fields), PhaseBatches(phases))
    ensures var outcomes := Outcomes(ContextOf(server, search, query, fields), PhaseBatches(phases));
      GetData(server, search, query, phases, fields).Success? <==>
        AllSucceed(outcomes) && |Concat(RowsOf(outcomes))| == HitsOf(outcomes)
    ensures var outcomes := Outcomes(ContextOf(server, search, query, fields), PhaseBatches(phases));
      GetData(server, search, query, phases, fields).Success? ==>
        GetData(server, search, query, phases, fields).value == Concat(RowsOf(outcomes))
        && |GetData(server, search, query, phases, fields).value| == HitsOf(outcomes)
    ensures var outcomes := Outcomes(ContextOf(server, search, query, fields), PhaseBatches(phases));
      AllSucceed(outcomes) && |Concat(RowsOf(outcomes))| != HitsOf(outcomes) ==>
        GetData(server, search, query, phases, fields) == Failure(CountsDiffer)
  {
    GatherOutcome(Outcomes(ContextOf(server, search, query, fields), PhaseBatches(phases)));
  }

  lemma PrependTwice(a: seq<Entry>, b: seq<Entry>, r: Result<BatchOut, ApiError>)
    ensures Prepend(a, Prepend(b, r)) == Prepend(a + b, r)
  {
    if r.Success? {
      assert a + (b + r.value.rows) == (a + b) + r.value.rows;
    }
  }

  /** One turn of the page loop as written: request page `counter`, then run the
      checks in source order. A turn either stops the batch, with an error or with the
      last page's rows, or hands the page's rows and hit count on to the next turn. */
  method PageTurn(ctx: Context, batch: seq<int>, counter: nat, hits: int)
    returns (stop: Option<Result<BatchOut, ApiError>>, rows: seq<Entry>, count: int)
    requires KeepsPageRange(ctx, batch)
    requires counter < MaxPages && Reached(ctx, batch, counter) && hits == HitsBefore(ctx, batch, counter)
    ensures stop.Some? ==> stop.value == RunBatch(ctx, batch, counter, hits)
    ensures stop.None? ==>
      && counter + 1 < MaxPages && Reached(ctx, batch, counter + 1)
      && count == HitsBefore(ctx, batch, counter + 1)
      && RunBatch(ctx, batch, counter, hits) == Prepend(rows, RunBatch(ctx, batch, counter + 1, count))
  {
    var result := PageReply(ctx, batch, counter);
    if result.Failed? {
      return Some(Failure(Raise(result))), [], 0;
    }
    if result.npages > MaxPages {
      return Some(Failure(TooManyHits(result.count))), [], 0;
    }
    var massaged := ctx.treat(result.out);
    if massaged.Failure? {
      return Some(Failure(massaged.error)), [], 0;
    }
    if hits != 0 && hits != result.count {
      return Some(Failure(Drift)), [], 0;
    }
    if counter == result.npages - 1 {
      return Some(Success(BatchOut(massaged.value, result.count))), [], 0;
    }
    ReachNext(ctx, batch, counter);
    return None, massaged.value, result.count;
  }

  /** The loop's state before page `counter`: the page is reached with the hit count
      the loop holds, and the output so far followed by the rest of the walk is the
      earlier output followed by the whole batch. */
  ghost predicate Walking(ctx: Context, batch: seq<int>, output: seq<Entry>, out: seq<Entry>, counter: nat, hits: int)
    requires KeepsPageRange(ctx, batch)
  {
    && counter < MaxPages && Reached(ctx, batch, counter) && hits == HitsBefore(ctx, batch, counter)
    && Prepend(out, RunBatch(ctx, batch, counter, hits)) == Prepend(output, Batch(ctx, batch))
  }

  /** The page loop of one batch as written: the rows of each page are appended to
      `output` as they arrive. */
  method WalkBatch(ctx: Context, batch: seq<int>, output: seq<Entry>) returns (r: Result<BatchOut, ApiError>)
    requires KeepsPageRange(ctx, batch)
    ensures r == Prepend(output, Batch(ctx, batch))
  {
    var out := output;
    var counter := 0;
    var hitsCount := 0;
    while true
      invariant counter < MaxPages && Walking(ctx, batch, output, out, counter, hitsCount)
      decreases MaxPages - counter
    {
      var stop, rows, count := PageTurn(ctx, batch, counter, hitsCount);
      if stop.Some? {
        return Prepend(out, stop.value);
      }
      PrependTwice(out, rows, RunBatch(ctx, batch, counter + 1, count));
      out := out + rows;
      hitsCount := count;
      counter := counter + 1;
    }
  }

  /** The hit count the loop holds when it asks for page `k`: nothing before the first
      page, else the count the previous page declared. */
  function HitsBefore(ctx: Context, batch: seq<int>, k: nat): int {
    if k == 0 then 0
    else match PageReply(ctx, batch, k - 1)
      case Page(_, count, _) => count
      case Failed(_, _) => 0
  }

  /** Page `k` is accepted, given the hit count seen before it: the server answered with
      results, declared no more pages than the ceiling, every record is of a known kind,
      and the hit count has not changed. */
  predicate Accepted(ctx: Context, batch: seq<int>, k: nat, hits: int) {
    match PageReply(ctx, batch, k)
    case Failed(_, _) => false
    case Page(out, count, npages) =>
      npages <= MaxPages && ctx.treat(out).Success? && (hits == 0 || hits == count)
  }

  /** The error raised at page `k` when it is not accepted, in the order the checks run. */
  function Refusal(ctx: Context, batch: seq<int>, k: nat, hits: int): ApiError {
    match PageReply(ctx, batch, k)
    case Failed(_, _) => Raise(PageReply(ctx, batch, k))
    case Page(out, count, npages) =>
      if npages > MaxPages then TooManyHits(count)
      else if ctx.treat(out).Failure? then ctx.treat(out).error
      else Drift
  }

  /** Whether page `k` declares itself the last one. */
  predicate IsLast(ctx: Context, batch: seq<int>, k: nat) {
    PageReply(ctx, batch, k).Page? && PageReply(ctx, batch, k).npages == k + 1
  }

  /** The rows page `k` contributes. */
  function PageRows(ctx: Context, batch: seq<int>, k: nat): seq<Entry> {
    match PageReply(ctx, batch, k)
    case Failed(_, _) => []
    case Page(out, _, _) =>
      match ctx.treat(out)
      case Success(rows) => rows
      case Failure(_) => []
  }

  /** The rows of pages `c` to `n`, in page order. */
  function RowsFrom(ctx: Context, batch: seq<int>, c: nat, n: nat): seq<Entry>
    decreases n + 1 - c
  {
    if c > n then [] else PageRows(ctx, batch, c) + RowsFrom(ctx, batch, c + 1, n)
  }

  /** Starting at page `c`, the walk accepts pages `c` to `n`, and page `n` is the first of
      them to declare itself the last. */
  predicate CompletesFrom(ctx: Context, batch: seq<int>, c: nat, n: nat) {
    && c <= n < MaxPages
    && (forall k :: c <= k <= n ==> Accepted(ctx, batch, k, HitsBefore(ctx, batch, k)))
    && (forall k :: c <= k < n ==> !IsLast(ctx, batch, k))
    && IsLast(ctx, batch, n)
  }

  /** Starting at page `c`, the walk accepts pages `c` to `k - 1`, none of them the last,
      and refuses page `k`. */
  predicate RefusedFrom(ctx: Context, batch: seq<int>, c: nat, k: nat) {
    && c <= k < MaxPages
    && (forall j :: c <= j < k ==> Accepted(ctx, batch, j, HitsBefore(ctx, batch, j)) && !IsLast(ctx, batch, j))
    && !Accepted(ctx, batch, k, HitsBefore(ctx, batch, k))
  }

  /** What one turn of the page loop does, in terms of the page's acceptance. */
  lemma RunBatchAt(ctx: Context, batch: seq<int>, c: nat)
    requires KeepsPageRange(ctx, batch)
    requires c < MaxPages && Reached(ctx, batch, c)
    ensures !Accepted(ctx, batch, c, HitsBefore(ctx, batch, c)) ==>
      RunBatch(ctx, batch, c, HitsBefore(ctx, batch, c)) == Failure(Refusal(ctx, batch, c, HitsBefore(ctx, batch, c)))
    ensures Accepted(ctx, batch, c, HitsBefore(ctx, batch, c)) && IsLast(ctx, batch, c) ==>
      RunBatch(ctx, batch, c, HitsBefore(ctx, batch, c)) == Success(BatchOut(PageRows(ctx, batch, c), PageReply(ctx, batch, c).count))
    ensures Accepted(ctx, batch, c, HitsBefore(ctx, batch, c)) && !IsLast(ctx, batch, c) ==>
      && c + 1 < MaxPages && Reached(ctx, batch, c + 1)
      && HitsBefore(ctx, batch, c + 1) == PageReply(ctx, batch, c).count
      && RunBatch(ctx, batch, c, HitsBefore(ctx, batch, c)) == Prepend(PageRows(ctx, batch, c), RunBatch(ctx, batch, c + 1, HitsBefore(ctx, batch, c + 1)))
  {
    if Accepted(ctx, batch, c, HitsBefore(ctx, batch, c)) && !IsLast(ctx, batch, c) {
      ReachNext(ctx, batch, c);
    }
  }

  /** A walk that completes at page `n` yields the rows of pages `c` to `n` and the hit
      count page `n` declared. */
  lemma {:induction false} CompletesGivesRows(ctx: Context, batch: seq<int>, c: nat, n: nat)
    requires KeepsPageRange(ctx, batch)
    requires CompletesFrom(ctx, batch, c, n) && Reached(ctx, batch, c)
    ensures RunBatch(ctx, batch, c, HitsBefore(ctx, batch, c)) ==
      Success(BatchOut(RowsFrom(ctx, batch, c, n), PageReply(ctx, batch, n).count))
    decreases n - c
  {
    RunBatchAt(ctx, batch, c);
    if c < n {
      assert CompletesFrom(ctx, batch, c + 1, n);
      CompletesGivesRows(ctx, batch, c + 1, n);
    } else {
      assert RowsFrom(ctx, batch, c + 1, n) == [];
      assert PageRows(ctx, batch, c) + [] == PageRows(ctx, batch, c);
    }
  }

  /** A walk from page `c` that ends in success completes at some page, and one that ends
      in failure is refused at some page with that page's error. */
  lemma {:induction false} RunBatchTrace(ctx: Context, batch: seq<int>, c: nat)
    requires KeepsPageRange(ctx, batch)
    requires c < MaxPages && Reached(ctx, batch, c)
    ensures RunBatch(ctx, batch, c, HitsBefore(ctx, batch, c)).Success? ==>
      exists n :: CompletesFrom(ctx, batch, c, n)
    ensures RunBatch(ctx, batch, c, HitsBefore(ctx, batch, c)).Failure? ==>
      exists k :: RefusedFrom(ctx, batch, c, k)
        && RunBatch(ctx, batch, c, HitsBefore(ctx, batch, c)).error == Refusal(ctx, batch, k, HitsBefore(ctx, batch, k))
  {
    RunBatchSucceeds(ctx, batch, c);
    RunBatchFails(ctx, batch, c);
  }

  /** A walk from a reached page that succeeds completes at some later page. */
  lemma {:induction false} RunBatchSucceeds(ctx: Context, batch: seq<int>, c: nat)
    requires KeepsPageRange(ctx, batch)
    requires c < MaxPages && Reached(ctx, batch, c)
    ensures RunBatch(ctx, batch, c, HitsBefore(ctx, batch, c)).Success? ==>
      exists n :: CompletesFrom(ctx, batch, c, n)
    decreases MaxPages - c
  {
    RunBatchAt(ctx, batch, c);
    if !Accepted(ctx, batch, c, HitsBefore(ctx, batch, c)) {
    } else if IsLast(ctx, batch, c) {
      assert CompletesFrom(ctx, batch, c, c);
    } else {
      RunBatchSucceeds(ctx, batch, c + 1);
      if RunBatch(ctx, batch, c + 1, HitsBefore(ctx, batch, c + 1)).Success? {
        var n :| CompletesFrom(ctx, batch, c + 1, n);
        CompletesEarlier(ctx, batch, c, n);
      }
    }
  }

  /** A walk from a reached page that fails is refused at some later page, with that
      page's error. */
  lemma {:induction false} RunBatchFails(ctx: Context, batch: seq<int>, c: nat)
    requires KeepsPageRange(ctx, batch)
    requires c < MaxPages && Reached(ctx, batch, c)
    ensures RunBatch(ctx, batch, c, HitsBefore(ctx, batch, c)).Failure? ==>
      exists k :: RefusedFrom(ctx, batch, c, k)
        && RunBatch(ctx, batch, c, HitsBefore(ctx, batch, c)).error == Refusal(ctx, batch, k, HitsBefore(ctx, batch, k))
    decreases MaxPages - c
  {
    RunBatchAt(ctx, batch, c);
    if !Accepted(ctx, batch, c, HitsBefore(ctx, batch, c)) {
      assert RefusedFrom(ctx, batch, c, c);
    } else if !IsLast(ctx, batch, c) {
      RunBatchFails(ctx, batch, c + 1);
      var next := RunBatch(ctx, batch, c + 1, HitsBefore(ctx, batch, c + 1));
      if next.Failure? {
        var k :| RefusedFrom(ctx, batch, c + 1, k) && next.error == Refusal(ctx, batch, k, HitsBefore(ctx, batch, k));
        RefusedEarlier(ctx, batch, c, k);
      }
    }
  }


  /** An accepted page that is not the last extends a completing walk backwards. */
  lemma CompletesEarlier(ctx: Context, batch: seq<int>, c: nat, n: nat)
    requires Accepted(ctx, batch, c, HitsBefore(ctx, batch, c)) && !IsLast(ctx, batch, c)
    requires CompletesFrom(ctx, batch, c + 1, n)
    ensures CompletesFrom(ctx, batch, c, n)
  {
  }

  /** An accepted page that is not the last extends a refused walk backwards. */
  lemma RefusedEarlier(ctx: Context, batch: seq<int>, c: nat, k: nat)
    requires Accepted(ctx, batch, c, HitsBefore(ctx, batch, c)) && !IsLast(ctx, batch, c)
    requires RefusedFrom(ctx, batch, c + 1, k)
    ensures RefusedFrom(ctx, batch, c, k)
  {
  }

  /** At most one page completes a walk: the first page that declares itself the last. */
  lemma CompletesUnique(ctx: Context, batch: seq<int>, c: nat, n: nat, m: nat)
    ensures CompletesFrom(ctx, batch, c, n) && CompletesFrom(ctx, batch, c, m) ==> n == m
  {
  }

  /** A completing walk and a refused one exclude each other. */
  lemma CompletesExcludesRefusal(ctx: Context, batch: seq<int>, c: nat, n: nat, k: nat)
    ensures CompletesFrom(ctx, batch, c, n) ==> !RefusedFrom(ctx, batch, c, k)
  {
  }

  /** At most one page refuses a walk. */
  lemma RefusedUnique(ctx: Context, batch: seq<int>, c: nat, k: nat, j: nat)
    ensures RefusedFrom(ctx, batch, c, k) && RefusedFrom(ctx, batch, c, j) ==> k == j
  {
  }

  /** A batch succeeds exactly when its walk completes at some page `n` within the
      ceiling; its rows are then those of pages 0 to `n` in order and its hit count is
      the one page `n` declared. It fails exactly when some page is refused after only
      accepted, non-final pages, and the error is the one that page raises. */
  lemma BatchTrace(ctx: Context, batch: seq<int>)
    requires KeepsPageRange(ctx, batch)
    ensures Batch(ctx, batch).Success? <==> exists n :: CompletesFrom(ctx, batch, 0, n)
    ensures forall n :: CompletesFrom(ctx, batch, 0, n) ==>
      Batch(ctx, batch) == Success(BatchOut(RowsFrom(ctx, batch, 0, n), PageReply(ctx, batch, n).count))
    ensures Batch(ctx, batch).Failure? <==> exists k :: RefusedFrom(ctx, batch, 0, k)
    ensures forall k :: RefusedFrom(ctx, batch, 0, k) ==>
      Batch(ctx, batch) == Failure(Refusal(ctx, batch, k, HitsBefore(ctx, batch, k)))
  {
    RunBatchTrace(ctx, batch, 0);
    forall n | CompletesFrom(ctx, batch, 0, n)
      ensures Batch(ctx, batch) == Success(BatchOut(RowsFrom(ctx, batch, 0, n), PageReply(ctx, batch, n).count))
    {
      CompletesGivesRows(ctx, batch, 0, n);
    }
    forall n: nat, k: nat
      ensures CompletesFrom(ctx, batch, 0, n) ==> !RefusedFrom(ctx, batch, 0, k)
    {
      CompletesExcludesRefusal(ctx, batch, 0, n, k);
    }
    forall k | RefusedFrom(ctx, batch, 0, k)
      ensures Batch(ctx, batch) == Failure(Refusal(ctx, batch, k, HitsBefore(ctx, batch, k)))
    {
      var k' :| RefusedFrom(ctx, batch, 0, k') && Batch(ctx, batch).error == Refusal(ctx, batch, k', HitsBefore(ctx, batch, k'));
      RefusedUnique(ctx, batch, 0, k, k');
    }
  }

  lemma AbsorbTwice(a: seq<Entry>, x: int, b: seq<Entry>, y: int, r: Result<Collected, ApiError>)
    ensures Absorb(a, x, Absorb(b, y, r)) == Absorb(a + b, x + y, r)
  {
    if r.Success? {
      assert a + (b + r.value.rows) == (a + b) + r.value.rows;
    }
  }

  /** One step of the batch loop: the outcome of batch `step`, with what was collected
      before it put in front, either aborts the whole retrieval or leaves the remaining
      batches to be gathered. */
  lemma {:induction false} GatherStep(outcomes: seq<Result<BatchOut, ApiError>>, step: nat, output: seq<Entry>, total: int,
                   walked: Result<BatchOut, ApiError>)
    requires step < |outcomes|
    requires Absorb(output, total, Gather(outcomes[step..])) == Gather(outcomes)
    requires walked == Prepend(output, outcomes[step])
    ensures walked.Failure? ==> Gather(outcomes) == Failure(walked.error)
    ensures walked.Success? ==>
      Absorb(walked.value.rows, total + walked.value.hits, Gather(outcomes[step + 1..])) == Gather(outcomes)
  {
    var rest := outcomes[step..];
    assert rest[0] == outcomes[step] && rest[1..] == outcomes[step + 1..];
    AbsorbHead(output, total, rest, walked);
  }

  /** Gathering from the first remaining outcome on, with what was collected before
      it put in front. */
  lemma AbsorbHead(output: seq<Entry>, total: int, rest: seq<Result<BatchOut, ApiError>>, walked: Result<BatchOut, ApiError>)
    requires |rest| > 0 && walked == Prepend(output, rest[0])
    ensures walked.Failure? ==> Absorb(output, total, Gather(rest)) == Failure(walked.error)
    ensures walked.Success? ==>
      Absorb(output, total, Gather(rest)) == Absorb(walked.value.rows, total + walked.value.hits, Gather(rest[1..]))
  {
    match rest[0]
    case Failure(e) =>
    case Success(first) =>
      AbsorbTwice(output, total, first.rows, first.hits, Gather(rest[1..]));
  }

  lemma GatherStart(outcomes: seq<Result<BatchOut, ApiError>>)
    ensures Absorb([], 0, Gather(outcomes[0..])) == Gather(outcomes)
  {
    assert outcomes[0..] == outcomes;
    var g := Gather(outcomes);
    if g.Success? {
      assert [] + g.value.rows == g.value.rows;
    }
  }

  lemma GatherEnd(outcomes: seq<Result<BatchOut, ApiError>>, output: seq<Entry>, total: int)
    requires Absorb(output, total, Gather(outcomes[|outcomes|..])) == Gather(outcomes)
    ensures Gather(outcomes) == Success(Collected(output, total))
  {
    assert outcomes[|outcomes|..] == [];
    assert output + [] == output;
  }

  /** The final check of `get_data`: as many rows collected as the batches declared. */
  function Finish(g: Result<Collected, ApiError>): (r: Result<seq<Entry>, ApiError>)
    ensures g.Failure? ==> r == Failure(g.error)
    ensures g.Success? ==> (r.Success? <==> |g.value.rows| == g.value.total)
    ensures g.Success? && |g.value.rows| != g.value.total ==> r == Failure(CountsDiffer)
    ensures r.Success? ==> g.Success? && r.value == g.value.rows
  {
    match g
    case Failure(e) => Failure(e)
    case Success(c) => if |c.rows| != c.total then Failure(CountsDiffer) else Success(c.rows)
  }

  /** The batch loop of `get_data` as written: each batch is walked with the rows
      collected so far, and the hit counts are summed. */
  method WalkBatches(ctx: Context, batches: seq<seq<int>>) returns (r: Result<seq<Entry>, ApiError>)
    requires KeepsPageRanges(ctx, batches)
    ensures r == Finish(Gather(Outcomes(ctx, batches)))
  {
    r := GatherLoop(ctx, batches, Outcomes(ctx, batches));
  }

  /** The loop of `WalkBatches`, against the outcomes of the batches. */
  method GatherLoop(ctx: Context, batches: seq<seq<int>>, ghost outcomes: seq<Result<BatchOut, ApiError>>)
    returns (r: Result<seq<Entry>, ApiError>)
    requires OutcomesOf(ctx, batches, outcomes)
    ensures r == Finish(Gather(outcomes))
  {
    var output: seq<Entry> := [];
    var totCount := 0;
    var step := 0;
    GatherStart(outcomes);
    while step < |batches|
      invariant 0 <= step <= |outcomes|
      invariant step == |outcomes| ==> |outcomes| == |batches|
      invariant Absorb(output, totCount, Gather(outcomes[step..])) == Gather(outcomes)
    {
      var walked := NextBatch(ctx, batches, outcomes, step, output);
      GatherStep(outcomes, step, output, totCount, walked);
      if walked.Failure? {
        return Failure(walked.error);
      }
      OutcomesGoOn(ctx, batches, outcomes, step);
      assert Absorb(walked.value.rows, totCount + walked.value.hits, Gather(outcomes[step + 1..])) == Gather(outcomes);
      output := walked.value.rows;
      totCount := totCount + walked.value.hits;
      step := step + 1;
    }
    assert step == |outcomes|;
    GatherEnd(outcomes, output, totCount);
    if |output| != totCount {
      return Failure(CountsDiffer);
    }
    return Success(output);
  }

  /** After a batch that succeeded, either another batch follows or every batch was
      requested. */
  lemma OutcomesGoOn(ctx: Context, batches: seq<seq<int>>, outcomes: seq<Result<BatchOut, ApiError>>, step: nat)
    requires OutcomesOf(ctx, batches, outcomes)
    requires step < |outcomes| && outcomes[step].Success?
    ensures step + 1 == |outcomes| ==> |outcomes| == |batches|
  {
  }

  /** Walks batch `step` with the rows collected so far in front. */
  method NextBatch(ctx: Context, batches: seq<seq<int>>, ghost outcomes: seq<Result<BatchOut, ApiError>>, step: nat,
                   output: seq<Entry>)
    returns (walked: Result<BatchOut, ApiError>)
    requires OutcomesOf(ctx, batches, outcomes)
    requires step < |outcomes|
    ensures walked == Prepend(output, outcomes[step])
  {
    assert BatchOutcome(ctx, batches[step], outcomes[step]);
    walked := WalkBatch(ctx, batches[step], output);
  }

  /** `get_data` as the loops it is written with. */
  method Retrieve(server: Server, search: Search, query: string, phases: seq<int>, fields: map<string, seq<FieldSpec>>)
    returns (r: Result<seq<Entry>, ApiError>)
    requires KeepsPageRanges(ContextOf(server, search, query, fields), PhaseBatches(phases))
    ensures r == GetData(server, search, query, phases, fields)
  {
    r := WalkBatches(ContextOf(server, search, query, fields), PhaseBatches(phases));
  }

  /** What `count_data` reports: the declared hit count and, when fetching them would
      take more pages than the ceiling, the ceiling its warning suggests instead. */
  datatype Count = Count(hits: int, suggested: Option<int>)

  /** The single request `count_data` makes: the phase ids as given, page 0, 10 per page. */
  function CountRequest(query: string, phases: seq<int>): (rq: Request)
    ensures rq == Request(query, phases, 0, CountPageSize)
  {
    MakeRequest(query, phases, 0, Some(CountPageSize))
  }

  /** `count_data`: one small request; every error reply is raised (an empty result
      included, as "No hits" with code 1), otherwise the declared count is returned. */
  function CountData(server: Server, query: string, phases: seq<int>): (r: Result<Count, ApiError>)
    ensures var resp := server(Request(query, phases, 0, CountPageSize));
      r.Success? <==> resp.status == 200 && resp.body.Some? && Usable(resp.body.value)
    ensures var resp := server(Request(query, phases, 0, CountPageSize));
      r.Success? ==> (
        && r.value.hits == resp.body.value.count
        && (r.value.suggested.Some? <==> resp.body.value.npages > MaxPages)
        && (r.value.suggested.Some? ==>
              (r.value.suggested.value - 1) * PageSize < r.value.hits <= r.value.suggested.value * PageSize))
    ensures var resp := server(Request(query, phases, 0, CountPageSize));
      resp.status != 200 ==> r.Failure? && r.error.code == resp.status
    ensures var resp := server(Request(query, phases, 0, CountPageSize));
      resp.status == 200 && resp.body.None? ==> r == Failure(ApiError(Unreadable, 0))
    ensures var resp := server(Request(query, phases, 0, CountPageSize));
      resp.status == 200 && resp.body.Some? && resp.body.value.error != "" ==>
        r == Failure(ApiError(resp.body.value.error, 0))
    ensures var resp := server(Request(query, phases, 0, CountPageSize));
      resp.status == 200 && resp.body.Some? && resp.body.value.error == "" && |resp.body.value.out| == 0 ==>
        r == Failure(ApiError(NoHits, 1))
  {
    var reply := Classify(server(CountRequest(query, phases)));
    if reply.Failed? then Failure(Raise(reply))
    else
      var suggested := if reply.npages > MaxPages then Some((reply.count + PageSize - 1) / PageSize) else None;
      Success(Count(reply.count, suggested))
  }

  /** The warning of `count_data` fires for a result that `get_data` retrieves without
      trouble: 5000 hits take 500 pages of 10, more than the ceiling, but only 5 pages of
      the size `get_data` uses, and the suggested new ceiling is below the current one. */
  lemma CountWarningMisfires()
    ensures var server := (rq: Request) => Response(200, Some(Body("", [Record("S", JNull)], 5000, 500)));
      && CountData(server, "", []) == Success(Count(5000, Some(5)))
      && 5 <= MaxPages
  {
  }

  /** `count_data` with the warning it evidently means: it fires exactly when fetching
      the hits at the retrieval page size would take more pages than the ceiling, which
      is when `get_data` refuses the batch, and the suggested ceiling is then above the
      current one. */
  function CountDataIntended(server: Server, query: string, phases: seq<int>): (r: Result<Count, ApiError>)
    ensures r.Success? <==> CountData(server, query, phases).Success?
    ensures r.Failure? ==> r == CountData(server, query, phases)
    ensures r.Success? ==> r.value.hits == CountData(server, query, phases).value.hits
    ensures r.Success? ==> (r.value.suggested.Some? <==> r.value.hits > MaxPages * PageSize)
    ensures r.Success? && r.value.suggested.Some? ==>
      && r.value.suggested.value > MaxPages
      && (r.value.suggested.value - 1) * PageSize < r.value.hits <= r.value.suggested.value * PageSize
  {
    match CountData(server, query, phases)
    case Failure(e) => Failure(e)
    case Success(c) =>
      var pages := (c.hits + PageSize - 1) / PageSize;
      Success(Count(c.hits, if pages > MaxPages then Some(pages) else None))
  }
}

=== FILE: seqs.dfy ===
/** Flattening a sequence of sequences, and sequences without repeats. */
module Seqs {

  predicate NoDuplicates<T(==)>(xs: seq<T>) {
    forall i, j :: 0 <= i < j < |xs| ==> xs[i] != xs[j]
  }

  /** Concatenation of a sequence of sequences, first to last. */
  function Concat<T>(parts: seq<seq<T>>): (r: seq<T>)
    decreases |parts|
  {
    if |parts| == 0 then [] else parts[0] + Concat(parts[1..])
  }

  lemma {:induction false} ConcatSnoc<T>(parts: seq<seq<T>>, last: seq<T>)
    ensures Concat(parts + [last]) == Concat(parts) + last
    decreases |parts|
  {
    if |parts| == 0 {
      assert parts + [last] == [last];
    } else {
      assert (parts + [last])[1..] == parts[1..] + [last];
      ConcatSnoc(parts[1..], last);
    }
  }

  /** Extending the last part extends the flattening. */
  lemma ConcatExtendLast<T>(front: seq<seq<T>>, last: seq<T>, x: T)
    ensures Concat(front + [last + [x]]) == Concat(front + [last]) + [x]
  {
    ConcatSnoc(front, last);
    ConcatSnoc(front, last + [x]);
    var c := Concat(front);
    assert c + (last + [x]) == (c + last) + [x];
  }
}

=== FILE: text.dfy ===
/** Python's `sep.join(parts)` and `s.split(sep)` for a single separator character. */
module Text {

  /** `sep.join(parts)`. */
  function Join(parts: seq<string>, sep: char): string
    decreases |parts|
  {
    if |parts| == 0 then ""
    else if |parts| == 1 then parts[0]
    else parts[0] + [sep] + Join(parts[1..], sep)
  }

  /** `s.split(sep)`: the pieces between occurrences of `sep`; never empty. */
  function Split(s: string, sep: char): (parts: seq<string>)
    ensures |parts| >= 1
    decreases |s|
  {
    if |s| == 0 then [""]
    else
      var rest := Split(s[1..], sep);
      if s[0] == sep then [""] + rest else [[s[0]] + rest[0]] + rest[1..]
  }

  lemma {:induction false} SplitWithoutSeparator(a: string, sep: char)
    requires sep !in a
    ensures Split(a, sep) == [a]
    decreases |a|
  {
    if |a| > 0 {
      SplitWithoutSeparator(a[1..], sep);
      assert [a[0]] + a[1..] == a;
    }
  }

  /** Splitting stops at the first separator. */
  lemma {:induction false} SplitAtFirstSeparator(a: string, sep: char, t: string)
    requires sep !in a
    ensures Split(a + [sep] + t, sep) == [a] + Split(t, sep)
    decreases |a|
  {
    var s := a + [sep] + t;
    if |a| == 0 {
      assert s[1..] == t;
    } else {
      SplitAtFirstSeparator(a[1..], sep, t);
      assert s[1..] == a[1..] + [sep] + t;
      assert [a[0]] + a[1..] == a;
    }
  }

  /** Splitting undoes joining when no part contains the separator. */
  lemma {:induction false} SplitJoin(parts: seq<string>, sep: char)
    requires |parts| >= 1
    requires forall i :: 0 <= i < |parts| ==> sep !in parts[i]
    ensures Split(Join(parts, sep), sep) == parts
    decreases |parts|
  {
    if |parts| == 1 {
      SplitWithoutSeparator(parts[0], sep);
    } else {
      SplitJoin(parts[1..], sep);
      SplitAtFirstSeparator(parts[0], sep, Join(parts[1..], sep));
      assert [parts[0]] + parts[1..] == parts;
    }
  }
}
